=== FILE: README.md ===
# growth-map in Dafny

A model of the core of growth-map, a small achievement journal. It has two halves:

- A browser front end keeps a list of achievement records in memory, saves the list to `localStorage`, derives tag and per-day statistics from it, and imports and exports it as a JSON envelope.
- A FastAPI back end offers create, list, update and delete over a table of achievements, with request-body validation and an API-key check on the list endpoint.

The model is written as pure functions over immutable datatypes:

- Browser storage is a `map<string, Stored>` from key to what reading that key back yields. That is the empty string, text that does not parse, or a saved list.
- Clocks are parameters. `Clock(ms, iso)` is `Date.now()` together with `toISOString()` of the same instant.
- Date parsing is a parameter, `parseDate: string -> Option<int>`. `None` stands for an invalid date.
- The enumeration order of `localStorage.key(i)` is a parameter, `keys: seq<string>`.
- A failing `localStorage.setItem` is a boolean, `writeOk`.
- The database table is its rows in rowid order. That is the order in which SQLite stores and scans them.

| file | module | models |
|---|---|---|
| `wrappers.dfy` | `Wrappers` | `Option` and `Result` |
| `entities.dfy` | `Entities` | the achievement record and the injected clock |
| `text.dfy` | `Text` | decimal text, `parseInt`, `padStart`, JavaScript `trim` and Python `strip`, `split(sep)[0]` |
| `sorting.dfy` | `Sorting` | a stable descending sort by an integer key |
| `tags.dfy` | `Tags` | `src/constants/tags.jsx` |
| `achievements.dfy` | `Achievements` | the collection operations of `src/hooks/useAchievements.jsx` |
| `storage.dfy` | `Storage` | `src/utils/storage.jsx` |
| `backups.dfy` | `Backups` | `src/utils/strage.jsx` |
| `session.dfy` | `Session` | loading, seeding and auto-save in `src/hooks/useAchievements.jsx` |
| `panel.dfy` | `Panel` | the derived data of `src/components/StatisticsPanel.jsx` |
| `card.dfy` | `CardView` | the edit state and id label of `src/components/Card.jsx` |
| `form.dfy` | `Form` | the field updates and submit logic of `src/components/AddAchievementForm.jsx` |
| `schemas.dfy` | `Schemas` | `backend/schemas.py` |
| `auth.dfy` | `Auth` | `backend/auth.py` |
| `api.dfy` | `Api` | the CRUD handlers and completed count of `backend/main.py` |

Where the documentation and the code disagree, the model follows the code:

- The documentation says every change of the collection is persisted. The auto-save effect (`src/hooks/useAchievements.jsx:199-205`) only saves a non-empty list after loading has finished. So clearing the list, or importing a file with no acceptable entries, is never saved, and the next load brings the old list back. `Session.ClearThenReloadRestores` and `Session.EmptyImportIsNotSaved` state this.
- `src/utils/strage.jsx` uses `ACHIEVEMENTS_KEY` without declaring it. Its header says it extends `storage.js`, so the model uses the key declared at `src/utils/storage.jsx:4`.
- `backend/test_main.py:52-53` expects a list request without a key header to succeed. The handler depends on `verify_api_key`, so such a request is refused with 403. `Api.ReadWithoutKeyIsForbidden` states this.
- `backend/auth.py:35` reassigns the expected key after it was read from the environment. The effective key is therefore always `test123`.

## Model

| member | source | states |
|---|---|---|
| `Achievements.MaxId` | src/hooks/useAchievements.jsx:65-66 | the result bounds every id in the non-empty collection and is itself one of its ids |
| `Achievements.Add` | src/hooks/useAchievements.jsx:63-81 | the draft is prepended with a new id and a creation stamp, and the rest is unchanged; the new id exceeds every existing id, is 1 for an empty list, and is one past an existing id otherwise |
| `Achievements.AddKeepsIdsUnique` | src/hooks/useAchievements.jsx:65-76 | adding to a list with pairwise distinct ids keeps them distinct |
| `Achievements.Delete` | src/hooks/useAchievements.jsx:87-93 | the result keeps exactly the records whose id differs from the deleted one, and reports success |
| `Achievements.WithoutKeepsOrder` | src/hooks/useAchievements.jsx:88 | filtering distributes over concatenation, so the kept records stay in their relative order |
| `Achievements.DeleteIdempotent` | src/hooks/useAchievements.jsx:88 | deleting the same id twice gives what deleting it once gives |
| `Achievements.WithoutKeepsIdsUnique` | src/hooks/useAchievements.jsx:88 | filtering a list with distinct ids keeps the ids distinct |
| `Achievements.Clear` | src/hooks/useAchievements.jsx:115-119 | the collection becomes empty and success is reported |
| `Achievements.Merge` | src/hooks/useAchievements.jsx:103 | each patched field takes the patch value, each absent one keeps the record's value; id, date and creation time are kept, and the update time is stamped |
| `Achievements.Update` | src/hooks/useAchievements.jsx:100-110 | every record with the id is merged with the patch and every other record is unchanged, in place |
| `Achievements.UpdateOfMissingIdIsNoop` | src/hooks/useAchievements.jsx:101-105 | updating an id no record carries changes nothing |
| `Achievements.UpdateKeepsIds` | src/hooks/useAchievements.jsx:101-105 | updates leave the id sequence, and hence id uniqueness, as it was |
| `Achievements.BumpCounts` | src/hooks/useAchievements.jsx:130 | one increment adds 1 to exactly that tag's count and 1 to the sum of counts |
| `Achievements.BumpKeys` | src/hooks/useAchievements.jsx:130 | an increment adds its tag to the key set and keeps the keys distinct |
| `Achievements.ByTagFromKeys` | src/hooks/useAchievements.jsx:126-131 | the tag table built over a list keeps its keys distinct and gains exactly the tags present in the list |
| `Achievements.ByTagFromCounts` | src/hooks/useAchievements.jsx:126-131 | the tag table built over a list adds to each tag's count the number of records carrying it, and its counts grow by the number of records |
| `Achievements.ByTag` | src/hooks/useAchievements.jsx:125-131 | the `byTag` table has one entry per tag present, each counting that tag's records, and the counts sum to the total |
| `Achievements.DaysAgo` | src/hooks/useAchievements.jsx:138-139 | the age is undefined exactly for an invalid date, and otherwise is the floor of the elapsed time in whole days |
| `Achievements.Timestamp` | src/hooks/useAchievements.jsx:138 | the creation instant when present, otherwise the parsed date; undefined exactly when neither is available |
| `Achievements.CountWindowStep` | src/hooks/useAchievements.jsx:139-142 | widening a day window by one day adds exactly that day's records |
| `Achievements.Last7Days` | src/hooks/useAchievements.jsx:134-144 | a day number is a key exactly when it is at most 7 and some record is that many days old, and its value is that number of records |
| `Achievements.GetStatistics` | src/hooks/useAchievements.jsx:124-151 | the total is the list length, the tag counts partition it, and the day table counts records by age for ages up to 7, future ages included |
| `Achievements.ExportData` | src/hooks/useAchievements.jsx:156-165 | the envelope carries the list, its length, version "1.0" and the export moment |
| `Achievements.Valid` | src/hooks/useAchievements.jsx:180-182 | the kept entries are exactly the object entries with a non-empty title |
| `Achievements.ValidConcat` | src/hooks/useAchievements.jsx:180-182 | the import filter distributes over concatenation, so kept entries stay in their order |
| `Achievements.ValidSingle` | src/hooks/useAchievements.jsx:180-182 | a single entry is kept, as its record, exactly when it is an object with a non-empty title |
| `Achievements.ImportData` | src/hooks/useAchievements.jsx:171-191 | unparseable text, a null document and a missing collection each fail with their own error; otherwise the imported list is exactly the import filter applied to the collection, in order and with repeats, and the count is its length |
| `Achievements.ValidOfAllTitled` | src/hooks/useAchievements.jsx:180-182 | a list of titled records passes the import filter unchanged |
| `Achievements.ExportImportRoundTrip` | src/hooks/useAchievements.jsx:156-191 | importing an export gives back the same list and count when every title is non-empty |
| `Achievements.ImportKeepsRepeats` | src/hooks/useAchievements.jsx:180-191 | importing the same titled object twice keeps both copies and counts two |
| `Storage.LoadAchievements` | src/utils/storage.jsx:10-21 | an absent key, an empty string or unparseable text loads nothing; otherwise the saved list is returned |
| `Storage.SaveAchievements` | src/utils/storage.jsx:27-34 | after a successful write the list loads back whole; a failed write leaves the store as it was; other keys are never touched |
| `Storage.ClearAchievements` | src/utils/storage.jsx:39-41 | the key is removed and every other key is untouched |
| `Storage.GetStorageInfo` | src/utils/storage.jsx:47-58 | no data exactly for an absent key or empty string, failure exactly for unparseable text, and the record count for a saved list |
| `Storage.ClearThenLoad` | src/utils/storage.jsx:10-58 | after a clear, load finds nothing and the info reports no data |
| `Storage.SaveThenInfo` | src/utils/storage.jsx:27-58 | after a successful save the info counts the saved records |
| `Backups.BackupKey` | src/utils/strage.jsx:13 | a backup key starts with the backup prefix and never equals the primary key |
| `Backups.BackupAchievements` | src/utils/strage.jsx:8-22 | with primary data and a successful write, the primary text is copied under the new key and returned, and nothing else changes; otherwise nothing is written and no key is returned |
| `Backups.RestoreFromBackup` | src/utils/strage.jsx:27-41 | a missing or empty backup fails as not found without writing; otherwise the backup text overwrites the primary key before it is parsed, so unparseable text still replaces it and then fails |
| `Backups.BackupThenRestore` | src/utils/strage.jsx:8-41 | restoring a fresh backup gives back the list that was saved |
| `Backups.LastSegmentAfterDash` | src/utils/strage.jsx:57 | the last '-'-separated segment of a key ending in "-" plus dash-free text is that text |
| `Backups.TimestampOfBackupKey` | src/utils/strage.jsx:57 | parsing the timestamp out of a backup key gives back the time it was written with |
| `Backups.Candidates` | src/utils/strage.jsx:49-65 | the collected entries are exactly the enumerated keys with the prefix whose text parses, each described by its own key, timestamp and count |
| `Backups.CandidatesConcat` | src/utils/strage.jsx:49-65 | collecting over two runs of keys gives the entries of the first run followed by those of the second |
| `Backups.CandidatesCons` | src/utils/strage.jsx:49-65 | a key put in front of the enumeration contributes its own entry, if listed, ahead of the entries of the rest |
| `Backups.CandidatesSingle` | src/utils/strage.jsx:49-65 | a single key contributes its own entry exactly when it has the backup prefix and its text parses |
| `Backups.ParseTimestamp` | src/utils/strage.jsx:57 | no timestamp exactly when the last dash-separated segment of the key is empty or does not start with a digit |
| `Backups.ListBackups` | src/utils/strage.jsx:46-69 | the listing is a permutation of the collected entries, sorted newest first |
| `Backups.ListBackupsTieOrder` | src/utils/strage.jsx:46-69 | entries with equal timestamps keep the enumeration order they were collected in |
| `Backups.ListBackupsDistinct` | src/utils/strage.jsx:49-68 | when the enumeration names each key once, no backup is listed twice |
| `Backups.CleanupOldBackups` | src/utils/strage.jsx:74-89 | only listed backups are removed and no value changes; with at most five backups nothing is removed, otherwise the count removed is the number beyond five |
| `Backups.CleanupKeepsNewest` | src/utils/strage.jsx:75-83 | a listed backup survives cleanup exactly when it is among the first five of the listing |
| `Backups.CleanupRemovesOldest` | src/utils/strage.jsx:68-78 | every kept backup is at least as new as every removed one |
| `Session.InitialAchievements` | src/hooks/useAchievements.jsx:233-254 | two titled examples with ids 1 and 2, stamped with the current time and today's date, not yet updated |
| `Session.Mounted` | src/hooks/useAchievements.jsx:10-20 | a freshly mounted hook is loading, with an empty collection and no-data storage info |
| `Session.LoadData` | src/hooks/useAchievements.jsx:25-57 | a non-empty saved list is adopted without writing; otherwise the examples are saved, and when that write fails the store is unchanged: missing or empty text keeps the examples with no-data info, corrupt text empties the collection; loading always ends and other keys are untouched |
| `Session.Settle` | src/hooks/useAchievements.jsx:47-56 | the chosen list is kept with the stored list's info when it reads back, kept with no-data info when no text is stored, and replaced by an empty collection with the previous info when the stored text is corrupt |
| `Session.AutoSave` | src/hooks/useAchievements.jsx:199-205 | nothing happens while the list is empty or loading; otherwise a successful write saves the list, a failed write leaves the store as it was, and the info is re-read from whatever the key then holds; when that text is corrupt the info read throws, leaving the state as it was |
| `Session.SeedIsPersisted` | src/hooks/useAchievements.jsx:33-45 | the first load of an empty store seeds the examples, and a later load reads the same examples back |
| `Session.ClearThenReloadRestores` | src/hooks/useAchievements.jsx:199-205 | clearing is not saved, so a reload brings the previous saved list back |
| `Session.EmptyImportIsNotSaved` | src/hooks/useAchievements.jsx:199-205 | an import that keeps no entry leaves the store unchanged |
| `Session.AddIsSaved` | src/hooks/useAchievements.jsx:199-205 | after loading, an addition is saved together with the whole list |
| `Session.FailedSaveKeepsSavedList` | src/hooks/useAchievements.jsx:199-205 | a failed save over a readable saved list keeps that list under the key and refreshes the info to its count |
| `Session.FailedSaveOverCorruptTextThrows` | src/hooks/useAchievements.jsx:199-205 | a failed save of a loaded non-empty list over corrupt stored text ends in an uncaught exception with the state unchanged |
| `Tags.FindByName` | src/constants/tags.jsx:55 | the result is the first catalogue position with the name, or -1 exactly when none has it |
| `Tags.GetTagConfig` | src/constants/tags.jsx:54-56 | a known name gives its catalogue entry, and an unknown one the first entry |
| `Tags.GetTagNames` | src/constants/tags.jsx:61-63 | the names of the catalogue, in catalogue order |
| `Tags.TagNamesInOrder` | src/constants/tags.jsx:6-63 | the names are 学习, 健身, 工作, 生活, 创作, 社交 in that order |
| `Tags.GetTagColor` | src/constants/tags.jsx:68-71 | a known tag's own color, and "#3498db" for an unknown one |
| `Tags.GetTagEmoji` | src/constants/tags.jsx:76-79 | a known tag's own emoji, and "📚" for an unknown one |
| `Tags.CatalogueKeysDistinct` | src/constants/tags.jsx:6-49 | the catalogue's names and ids are pairwise distinct |
| `Sorting.SortDesc` | src/components/StatisticsPanel.jsx:12 | the result is sorted by descending key and is a permutation of the input |
| `Sorting.InsertWithKey` | src/components/StatisticsPanel.jsx:12 | inserting into a sorted list puts the new element ahead of the existing ones with the same key |
| `Sorting.SortDescIsStable` | src/components/StatisticsPanel.jsx:12 | the sort is stable: elements with equal keys keep their input order |
| `Text.DigitsValueOfNatToString` | src/components/Card.jsx:154 | the decimal text of a number reads back as that number |
| `Text.ParseLeadingIntOfNatToString` | src/utils/strage.jsx:57 | reading the leading digits of a number's decimal text gives the number back |
| `Text.PadStart` | src/components/Card.jsx:154 | the result is at least the width long, ends with the text, and is padded in front only with the pad character |
| `Text.StripEmptyIffAllSpace` | src/components/AddAchievementForm.jsx:48 | trimming gives the empty string exactly when the text is only whitespace |
| `Text.StripIdempotent` | backend/schemas.py:20-25 | stripping an already stripped text changes nothing |
| `Text.BeforeFirst` | src/hooks/useAchievements.jsx:241 | the result is a prefix without the separator, followed by the separator when shorter than the text |
| `Text.BeforeFirstAt` | src/components/AddAchievementForm.jsx:63 | the part before the first separator is the prefix up to its first occurrence |
| `Panel.Percentage` | src/components/StatisticsPanel.jsx:9 | 0 for a zero total; otherwise the exact percentage rounded half up, which lies between 0 and 100 when the count is within the total |
| `Panel.ShareColor` | src/components/StatisticsPanel.jsx:10 | never empty; the colour of the first catalogue entry with the tag, or "#3498db" when that colour is empty or no entry has the tag |
| `Panel.ShareEmoji` | src/components/StatisticsPanel.jsx:11 | never empty; the emoji of the first catalogue entry with the tag, or "📌" when that emoji is empty or no entry has the tag |
| `Panel.PanelMatchesCatalogue` | src/components/StatisticsPanel.jsx:10-11 | the panel colour of a tag agrees with the catalogue lookup, and so does its emoji for a known tag; an unknown tag gets "📌" where the catalogue gives "📚" |
| `Panel.Shares` | src/components/StatisticsPanel.jsx:6-11 | one share per tag table entry, in table order, with that entry's tag, count and percentage of the total and the tag's panel colour and emoji |
| `Panel.TagDistribution` | src/components/StatisticsPanel.jsx:6-12 | the shares, sorted by descending count, as a permutation of the tag table's entries |
| `Panel.DistributionTieOrder` | src/components/StatisticsPanel.jsx:6-12 | shares with equal counts keep the order of the tag table |
| `Panel.DistributionMatchesByTag` | src/components/StatisticsPanel.jsx:6-12 | every share is a tag table entry and every entry appears as a share |
| `Panel.DistributionCoversByTag` | src/components/StatisticsPanel.jsx:6-12 | every tag table entry appears among the shares with its count |
| `Panel.DistributionDrawsOnByTag` | src/components/StatisticsPanel.jsx:6-12 | every share comes from a tag table entry with the same tag and count |
| `Panel.DistributionPercentagesBounded` | src/components/StatisticsPanel.jsx:9 | when the counts sum to the total, every percentage lies between 0 and 100 |
| `Panel.Last7DaysData` | src/components/StatisticsPanel.jsx:15-19 | seven slots labelled today to six days ago, each holding the day table's value or 0 |
| `Panel.DayPrefixSum` | src/components/StatisticsPanel.jsx:107 | the sum of the first k slots counts the records aged 0 to k-1 days |
| `Panel.WeekTotal` | src/components/StatisticsPanel.jsx:41 | the overview total is 0 exactly when every day slot holds 0 |
| `Panel.RecentTotal` | src/components/StatisticsPanel.jsx:107 | the three-day total never exceeds the seven-day total |
| `Panel.PanelTotals` | src/components/StatisticsPanel.jsx:41-107 | the overview total counts the records aged 0 to 6 days, and the recent total those aged 0 to 2 days |
| `CardView.Edit` | src/components/Card.jsx:106-123 | each edit replaces exactly one buffer field and leaves the mode flags |
| `CardView.HandleSave` | src/components/Card.jsx:21-26 | an update carrying the buffer's title, description and tag is sent exactly when a handler exists, and editing ends |
| `CardView.HandleCancel` | src/components/Card.jsx:28-31 | the buffer is reset to the record's own fields and editing ends |
| `CardView.SaveTouchesOnlyEditedFields` | src/components/Card.jsx:21-26 | a saved edit changes only title, description, tag and update time of the edited record, never its id, date, creation time or image |
| `CardView.CancelThenSaveIsNeutral` | src/components/Card.jsx:21-31 | saving right after a cancel writes the record's own fields back |
| `CardView.IdLabel` | src/components/Card.jsx:154 | the label is the id's decimal text, padded in front with zeros to three characters |
| `CardView.EditOptionsAreCatalogue` | src/components/Card.jsx:120 | the edit form offers exactly the catalogue's tags, in catalogue order |
| `Form.HandleInputChange` | src/components/AddAchievementForm.jsx:30-36 | exactly the named field takes the new value |
| `Form.SelectTag` | src/components/AddAchievementForm.jsx:218-222 | the tag changes only while the form is neither uploading nor disabled |
| `Form.HandleSubmit` | src/components/AddAchievementForm.jsx:39-86 | disabled submission and a blank title are refused in that order; otherwise the draft has the clock as id, the form's fields, the default image when none was given and today's date, and the form is reset |
| `Form.DateIsIsoDay` | src/components/AddAchievementForm.jsx:63 | for ISO text the draft date is its first ten characters |
| `Form.SubmittedDraftGetsFreshId` | src/components/AddAchievementForm.jsx:57-70 | a submitted draft, once added, gets an id no other record has, whatever its clock id was |
| `Schemas.LengthCheck` | backend/schemas.py:7-11 | no violation exactly when the length is within bounds; a short text reports too short, a long one too long |
| `Schemas.TargetCheck` | backend/schemas.py:9 | no violation exactly when the target lies in 1..10000 |
| `Schemas.ValidateCreate` | backend/schemas.py:6-25 | an accepted body yields the title stripped, the current value defaulted to 0, and the other fields as sent; a refused one reports at least one violation |
| `Schemas.ValidateCreateIffValid` | backend/schemas.py:6-25 | a create body is accepted exactly when every field bound, the blank-title check and the current-within-target check hold |
| `Schemas.AcceptedCreateIsWellFormed` | backend/schemas.py:7-25 | the stored record of an accepted body itself satisfies every bound, its stripped title included |
| `Schemas.CreateViolationsLocate` | backend/schemas.py:6-25 | a violation names a given field exactly when that field's own check fails |
| `Schemas.ValidateUpdate` | backend/schemas.py:27-40 | an accepted update body is passed on unchanged; a refused one reports at least one violation |
| `Schemas.ValidateUpdateIffValid` | backend/schemas.py:27-40 | an update body is accepted exactly when every set field is within bounds and, when both are set, current does not exceed target |
| `Schemas.EmptyUpdateIsValid` | backend/schemas.py:27-40 | an update body with no field set is accepted |
| `Schemas.BlankUpdateTitleIsAccepted` | backend/schemas.py:20-32 | a spaces-only title is accepted by an update but refused by a create |
| `Auth.ExpectedKeyIgnoresEnvironment` | backend/auth.py:9-35 | the expected key is "test123" whatever the environment holds |
| `Auth.ExpectedKey` | backend/auth.py:9-35 | the expected key is "test123", and it agrees with the environment lookup exactly when the environment holds "test123" |
| `Auth.VerifyApiKey` | backend/auth.py:16-30 | an absent or empty key fails first with "缺少API Key", a different key fails with "无效的API Key", both as 403; a matching key is returned as given |
| `Auth.OnlyHardcodedKeyPasses` | backend/auth.py:16-35 | only "test123" passes, even a key equal to the environment value fails |
| `Api.IndexOf` | backend/main.py:99-101 | the first row with the id, or -1 exactly when no row has it |
| `Api.NextRowId` | backend/main.py:60-63 | the inserted row's id is 1 in an empty table and otherwise one past the largest id |
| `Api.CreateAchievement` | backend/main.py:55-64 | an invalid body gives 422 and no change; a valid one is appended with its validated fields under an id above every stored id (1 in an empty table) and returned as stored |
| `Api.CreateKeepsOrder` | backend/main.py:60-63 | a created row takes an id no stored row has, and the table stays ordered by id |
| `Api.CreateDefaultsCurrentToZero` | backend/main.py:60 | a body without a current value is stored with 0 |
| `Api.FilterCategory` | backend/main.py:82-84 | the kept rows are exactly those with the category, in table order |
| `Api.FilterCategoryConcat` | backend/main.py:82-84 | filtering distributes over concatenation, so kept rows stay in table order |
| `Api.FilterCategorySingle` | backend/main.py:82-84 | a single row is kept exactly when it has the category |
| `Api.Page` | backend/main.py:89 | the page is the contiguous run starting at the offset, negative offsets as 0, with at most `limit` rows unless the limit is negative |
| `Api.ReadAchievements` | backend/main.py:66-90 | the key is checked first and a refusal is a 403; an offset or limit outside the signed 64-bit range is a 500; otherwise the result is the page at the offset of the rows matching the category (all rows without one), each passed through the response model, and a 500 when any row of the page fails it; the table never changes |
| `Api.ResponseRow` | backend/main.py:66-68 | a stored row passes the response model exactly when its fields satisfy the create bounds, and is then returned with its title stripped |
| `Api.Served` | backend/main.py:66-90 | a page is returned exactly when every row passes the response model, row by row as the model returns it; otherwise the request fails with 500 "服务器内部错误" |
| `Api.ReadRespectsLimitAndCategory` | backend/main.py:72-90 | a successful read returns at most `limit` rows, all of the requested category when one is given |
| `Api.PageDrawsOnRows` | backend/main.py:89 | every row of a page is a row of the listing it was cut from |
| `Api.CreatedRowReadsBack` | backend/main.py:55-68 | a row just created passes the response model unchanged |
| `Api.OverTargetRowBreaksRead` | backend/main.py:66-112 | after an update stores a current value above the target, listing the table fails with 500 |
| `Api.PagesTile` | backend/main.py:89 | two consecutive pages of equal size together form the double-size page |
| `Api.ApplyUpdate` | backend/main.py:106-108 | every set field takes its new value and every unset field keeps the stored one |
| `Api.UpdateAchievement` | backend/main.py:93-112 | an invalid body gives 422; then an id outside the signed 64-bit range gives 500 and a missing id 404 "成就不存在"; then a body value outside that range gives 500; every failure leaves the table unchanged; otherwise only the row with the id changes and the changed row is returned |
| `Api.UpdateKeepsOrder` | backend/main.py:106-110 | an update never changes ids, so the table stays ordered |
| `Api.EmptyUpdateIsIdentity` | backend/main.py:106-108 | an empty body returns the row unchanged and leaves the table as it was |
| `Api.UpdateCanExceedTarget` | backend/main.py:106-108 | an update setting only the current value can store a current above the target |
| `Api.DeleteAchievement` | backend/main.py:115-128 | an id outside the signed 64-bit range gives 500 and a missing id 404, both without change; otherwise exactly that row is removed, the rest keep their order, and "删除成功" is returned |
| `Api.CreateThenDeleteRestores` | backend/main.py:55-128 | deleting a row just created gives back the table it was created in |
| `Api.CompletedCount` | backend/main.py:152-154 | at most the number of rows; equal to it exactly when every row is complete and 0 exactly when none is |
| `Api.OverallStats` | backend/main.py:149-165 | the total is the number of rows and the completed count never exceeds it |
| `Api.CompletedCountSplit` | backend/main.py:152-154 | the completed count of two tables together is the sum of their counts |
| `Api.CompletedCountRemove` | backend/main.py:152-154 | removing one row lowers the completed count by one exactly when that row was complete |
| `Api.DeleteCompletedCount` | backend/main.py:115-128 | deleting a row lowers the completed count by one exactly when that row was complete |
| `Api.OutOfRangeIntegersAnswer500` | backend/main.py:89-188 | a current value of 10^19 in an update, an id of 2^63 in a delete and a limit of 2^63 in a listing each answer 500 "服务器内部错误" and leave the table unchanged |
| `Api.CreateWithDefaults` | backend/test_main.py:13-24 | a body with title, target and category stores the title as sent and current value 0 |
| `Api.InvalidCreatesAreRefused` | backend/test_main.py:26-42 | a spaces-only title and a negative target are each refused with 422 naming their field |
| `Api.PartialUpdateKeepsTarget` | backend/test_main.py:80-101 | updating title and current leaves the target as it was |
| `Api.ReadWithoutKeyIsForbidden` | backend/main.py:77 | a list request without a key header is refused with 403 |

## Left out

- Timers and asynchronous behaviour are not modelled: the 800 ms delays in `loadData` and `handleSubmit`, the title debounce, and the `isUploading` flag being set and cleared. Each operation is its synchronous effect.
- Logging, `alert`, and the printing in `auth.py` and `read_achievements` are not modelled; none of them changes state.
- Concrete JSON text is not modelled. Stored text is one of `Empty`, `Corrupt` or `Saved(list)`, and an import document is a `Parsed` value. Byte sizes (`new Blob([data]).size`) and `lastModified` in the storage and backup info are dropped, because they depend on the text encoding and the locale clock.
- Timestamps are integer milliseconds, and `createdAt`/`updatedAt` are held as the instant they name rather than their ISO text. `new Date(text)` on a date string is the injected `parseDate`. The ISO text of the clock is needed only where it is sliced (`split('T')[0]`).
- `Achievements.ImportData`: a document whose `achievements` is a non-array truthy value and one where it is missing are treated alike, as `MissingCollection`, which is what the code does. Objects are read only through the record's fields, so extra JSON properties are not modelled.
- `Achievements.ImportData`: every kept entry's id is taken as an integer. An imported object without a numeric `id` gives `undefined` or a non-number, which `Math.max` in `addAchievement` turns into `NaN`. Such ids are not modelled, because no record written by this code lacks a numeric id.
- `Achievements.Add`: the new id is one past the largest id, which assumes every stored id is a number. After an import of id-less objects, `Math.max(...ids)` is `NaN` and so is every later id; the model does not represent that.
- `Achievements.AddKeepsIdsUnique`: the guarantee holds for numeric ids only. With a `NaN` id from an id-less import, `NaN + 1` is `NaN` and the ids are no longer distinct in JavaScript's sense.
- `Achievements.ByTag`: the key order of the tag table is the order tags are first met. `Object.entries` puts integer-like keys such as "2024" first, in ascending numeric order, and a tag named like an inherited property ("toString", "constructor") starts from a function rather than 0. Neither is modelled; the catalogue's tags are all non-numeric Chinese words.
- `Storage.LoadAchievements`: stored text is modelled as missing, empty, corrupt or a saved list. Text that parses as JSON but is not a list is not a separate case: the model treats it like corrupt text. For `null` that agrees with the code, which returns `null` either way; a number or an object would be returned as it is. This code only ever writes lists under the key.
- `Storage.GetStorageInfo`: for stored JSON that is not a list the code reads `.length` of the parsed value. `null` throws out of `getStorageInfo` just as unparseable text does, which the model matches by treating it as corrupt; a number or an object gives an undefined count, which is not modelled.
- `Backups.RestoreFromBackup`: a backup whose text is JSON but not a list is restored and returned as that value. The model classes it with corrupt text, which fails after the write.
- `Backups.Candidates`: a backup whose text parses as a number or an object is listed with an undefined count in the code. The model leaves it out as if it did not parse, which is what the code does for `null`, whose `.length` throws.
- `Achievements.Update`: the patch covers the fields the card editor sends (title, description, tag) plus the image. Arbitrary extra properties of an `updates` object are not modelled.
- `Backups.ListBackups`: JavaScript leaves the order of a `NaN` timestamp in the comparator implementation-defined. The model sorts such entries after every numeric one.
- `Backups.ParseTimestamp` reads leading decimal digits only. The leading whitespace, sign and `0x` prefixes `parseInt` also accepts are not modelled; backup keys written by this code never contain them.
- `Panel.Percentage` rounds the exact ratio `100 * count / total` half up. The panel computes `Math.round(count / total * 100)` in floating point, which can land just below a half point: for 23 of 40 the product is 57.49999999999999, so the panel shows 57 where the model gives 58. The model does not reproduce these floating-point results.
- `(total / 30).toFixed(1)` in the panel, and `avg_progress` and `overall_progress` in `backend/main.py`, are floating-point results and are not modelled. The category statistics endpoint (`backend/main.py:130-146`) is left out with them, since its only other output is a per-category row count.
- `Api.ReadAchievements`: the table is scanned in rowid order. That is SQLite's order both for a full scan and for the category index, whose equal entries are ordered by rowid.
- `Api.NextRowId` follows SQLite's rule for an `INTEGER PRIMARY KEY` without `AUTOINCREMENT`: the largest id plus one. The random id SQLite picks once the largest id is the maximum 64-bit value is not modelled.
- `Api.UpdateAchievement`: an update body that sets a field other than `description` to `null` is not modelled. It would store `NULL` into a `NOT NULL` column and fail in the database. The re-validation of the returned row against the response model is not modelled either.
- Every table row is taken to hold a signed 64-bit id, as SQLite requires. The lemmas that address a stored row by its id (`Api.EmptyUpdateIsIdentity`, `Api.PartialUpdateKeepsTarget`, `Api.DeleteCompletedCount`, `Api.CreateThenDeleteRestores`) therefore assume that id is in range. A table holding a larger id cannot arise in SQLite, and the handlers would answer 500 for it.
- Pydantic's coercion of request values (strings to integers and the like) is not modelled; bodies arrive with the field types already right.
- CORS settings, the exception handlers that reshape error responses, the health-check route, database sessions and the table creation in `backend/main.py` are not modelled.
- `backend/database.py` and `backend/models.py` are not part of this model beyond the shape of a row. `src/App.jsx`, `src/api.jsx`, `src/components/ImportExportPanel.jsx`, `LazyImage.jsx`, `SkeletonCard.jsx`, `src/data/achievements.jsx` and `vite.config.js` are not part of this model either. They hold presentation, DOM work, an HTTP wrapper, an unused seed set and build settings.
- The `GET /achievements/{id}` route exercised by `backend/test_main.py:58-78` does not exist in `backend/main.py`, so it is not modelled.

=== FILE: achievements.dfy ===
/**
 * The in-memory achievement collection of `useAchievements`: its mutations,
 * the statistics derived from it and the export/import envelope. Each
 * operation is the pure transformation the hook hands to `setAchievements`;
 * the clock is an explicit millisecond parameter.
 */
module Achievements {
  import opened Wrappers
  import opened Entities

  /** Milliseconds in a day, `1000 * 60 * 60 * 24`. */
  const DAY_MS: int := 86400000

  // ---------------------------------------------------------------- add

  /** `Math.max(...achievements.map(a => a.id))` on a non-empty collection. */
  function MaxId(s: seq<Achievement>): (m: int)
    requires |s| > 0
    ensures forall i :: 0 <= i < |s| ==> s[i].id <= m
    ensures HasId(s, m)
  {
    if |s| == 1 then s[0].id
    else
      var rest := MaxId(s[1..]);
      assert forall i :: 1 <= i < |s| ==> s[i] == s[1..][i - 1];
      if s[0].id >= rest then s[0].id else rest
  }

  /** The id `addAchievement` assigns: one more than the largest, 1 for an empty collection. */
  function NextId(s: seq<Achievement>): (r: int)
    ensures forall i :: 0 <= i < |s| ==> s[i].id < r
    ensures s == [] ==> r == 1
    ensures s != [] ==> HasId(s, r - 1)
  {
    if |s| > 0 then MaxId(s) + 1 else 1
  }

  datatype Added = Added(items: seq<Achievement>, newId: int)

  /**
   * `addAchievement(draft)` at time `now`: the draft, with its id replaced by
   * the next id and `createdAt` stamped, is prepended; the new id is returned.
   */
  function Add(s: seq<Achievement>, draft: Achievement, now: int): (r: Added)
    ensures |r.items| == |s| + 1
    ensures r.items[1..] == s
    ensures r.items[0] == draft.(id := r.newId, createdAt := Some(now))
    ensures forall i :: 0 <= i < |s| ==> s[i].id < r.newId
    ensures s == [] ==> r.newId == 1
    ensures s != [] ==> HasId(s, r.newId - 1)
  {
    var id := NextId(s);
    Added([draft.(id := id, createdAt := Some(now))] + s, id)
  }

  /** Adding keeps ids unique, so every sequence of adds yields pairwise distinct ids. */
  lemma AddKeepsIdsUnique(s: seq<Achievement>, draft: Achievement, now: int)
    requires UniqueIds(s)
    ensures UniqueIds(Add(s, draft, now).items)
  {
    var r := Add(s, draft, now).items;
    forall i, j | 0 <= i < j < |r| ensures r[i].id != r[j].id {
      if i == 0 {
        assert r[j] == s[j - 1];
      } else {
        assert r[i] == s[i - 1] && r[j] == s[j - 1];
      }
    }
  }

  // ---------------------------------------------------- delete / clear

  /** The outcome of `deleteAchievement`, `updateAchievement` and `clearAllAchievements`. */
  datatype Changed = Changed(items: seq<Achievement>, ok: bool)

  /** `achievements.filter(a => a.id !== id)`. */
  function Without(s: seq<Achievement>, id: int): (r: seq<Achievement>)
    ensures forall a :: a in r <==> a in s && a.id != id
    ensures |r| <= |s|
    ensures !HasId(s, id) ==> r == s
  {
    if s == [] then []
    else
      assert forall i :: 1 <= i < |s| ==> s[i] == s[1..][i - 1];
      (if s[0].id == id then [] else [s[0]]) + Without(s[1..], id)
  }

  function Delete(s: seq<Achievement>, id: int): (r: Changed)
    ensures r.ok
    ensures !HasId(r.items, id)
    ensures forall a :: a in r.items <==> a in s && a.id != id
  {
    Changed(Without(s, id), true)
  }

  /** Filtering distributes over concatenation: the kept records stay in their order. */
  lemma {:induction false} WithoutKeepsOrder(a: seq<Achievement>, b: seq<Achievement>, id: int)
    ensures Without(a + b, id) == Without(a, id) + Without(b, id)
  {
    if a != [] {
      assert (a + b)[0] == a[0];
      assert (a + b)[1..] == a[1..] + b;
      WithoutKeepsOrder(a[1..], b, id);
      var h := if a[0].id == id then [] else [a[0]];
      calc {
        Without(a + b, id);
        h + Without(a[1..] + b, id);
        h + (Without(a[1..], id) + Without(b, id));
        (h + Without(a[1..], id)) + Without(b, id);
        Without(a, id) + Without(b, id);
      }
    } else {
      assert a + b == b;
    }
  }

  /** Deleting the same id twice leaves the collection as the first delete did. */
  lemma DeleteIdempotent(s: seq<Achievement>, id: int)
    ensures Delete(Delete(s, id).items, id).items == Delete(s, id).items
  {
  }

  lemma DeleteKeepsIdsUnique(s: seq<Achievement>, id: int)
    requires UniqueIds(s)
    ensures UniqueIds(Delete(s, id).items)
  {
    WithoutKeepsIdsUnique(s, id);
  }

  lemma {:induction false} WithoutKeepsIdsUnique(s: seq<Achievement>, id: int)
    requires UniqueIds(s)
    ensures UniqueIds(Without(s, id))
  {
    if s != [] {
      UniqueIdsTail(s);
      WithoutKeepsIdsUnique(s[1..], id);
      if s[0].id != id {
        UniqueIdsCons(s[0], Without(s[1..], id));
      }
    }
  }

  lemma UniqueIdsTail(s: seq<Achievement>)
    requires s != [] && UniqueIds(s)
    ensures UniqueIds(s[1..])
    ensures forall a | a in s[1..] :: a.id != s[0].id
  {
    forall a | a in s[1..] ensures a.id != s[0].id {
      var k :| 0 <= k < |s[1..]| && s[1..][k] == a;
      assert s[k + 1] == a;
    }
    forall i, j | 0 <= i < j < |s[1..]| ensures s[1..][i].id != s[1..][j].id {
      assert s[1..][i] == s[i + 1] && s[1..][j] == s[j + 1];
    }
  }

  lemma UniqueIdsCons(x: Achievement, rest: seq<Achievement>)
    requires UniqueIds(rest)
    requires forall a | a in rest :: a.id != x.id
    ensures UniqueIds([x] + rest)
  {
    var r := [x] + rest;
    forall i, j | 0 <= i < j < |r| ensures r[i].id != r[j].id {
      assert r[j] == rest[j - 1];
      if i > 0 {
        assert r[i] == rest[i - 1];
      }
    }
  }

  function Clear(s: seq<Achievement>): (r: Changed)
    ensures r.ok && r.items == []
  {
    Changed([], true)
  }

  // ------------------------------------------------------------ update

  /**
   * The fields of an `updates` object: None when the key is absent. The
   * inner Option of `description` and `imageUrl` is the value itself, which
   * may be `undefined`.
   */
  datatype Patch = Patch(
    title: Option<string>,
    description: Option<Option<string>>,
    imageUrl: Option<Option<string>>,
    tag: Option<string>
  )

  /** `{ ...a, ...p, updatedAt: now }`. */
  function Merge(a: Achievement, p: Patch, now: int): (r: Achievement)
    ensures r.id == a.id && r.date == a.date && r.createdAt == a.createdAt
    ensures r.updatedAt == Some(now)
    ensures r.title == (if p.title.Some? then p.title.value else a.title)
    ensures r.description == (if p.description.Some? then p.description.value else a.description)
    ensures r.imageUrl == (if p.imageUrl.Some? then p.imageUrl.value else a.imageUrl)
    ensures r.tag == (if p.tag.Some? then p.tag.value else a.tag)
  {
    a.(title := p.title.GetOr(a.title),
       description := p.description.GetOr(a.description),
       imageUrl := p.imageUrl.GetOr(a.imageUrl),
       tag := p.tag.GetOr(a.tag),
       updatedAt := Some(now))
  }

  /** `achievements.map(a => a.id === id ? merged : a)`. */
  function Update(s: seq<Achievement>, id: int, p: Patch, now: int): (r: Changed)
    ensures r.ok
    ensures |r.items| == |s|
    ensures forall i :: 0 <= i < |s| && s[i].id == id ==> r.items[i] == Merge(s[i], p, now)
    ensures forall i :: 0 <= i < |s| && s[i].id != id ==> r.items[i] == s[i]
  {
    Changed(seq(|s|, i requires 0 <= i < |s| => if s[i].id == id then Merge(s[i], p, now) else s[i]), true)
  }

  /** An update of an id no record carries changes nothing. */
  lemma UpdateOfMissingIdIsNoop(s: seq<Achievement>, id: int, p: Patch, now: int)
    requires !HasId(s, id)
    ensures Update(s, id, p, now).items == s
  {
  }

  /** Updates never touch ids, so they keep them unique. */
  lemma UpdateKeepsIds(s: seq<Achievement>, id: int, p: Patch, now: int)
    ensures Ids(Update(s, id, p, now).items) == Ids(s)
    ensures UniqueIds(s) ==> UniqueIds(Update(s, id, p, now).items)
  {
  }

  // -------------------------------------------------------- statistics

  /**
   * One `byTag[tag]` property. The list keeps the order in which tags are
   * first met, which is the order `Object.entries` gives for tags that are
   * not integer-like.
   */
  datatype TagCount = TagCount(tag: string, count: nat)

  datatype Statistics = Statistics(total: nat, byTag: seq<TagCount>, last7Days: map<int, nat>)

  /** The number of records tagged `t`. */
  function CountTag(s: seq<Achievement>, t: string): (n: nat)
    ensures n <= |s|
  {
    if s == [] then 0 else (if s[0].tag == t then 1 else 0) + CountTag(s[1..], t)
  }

  /** The keys of a tag table. */
  function TagKeys(m: seq<TagCount>): set<string> {
    set i | 0 <= i < |m| :: m[i].tag
  }

  predicate DistinctTags(m: seq<TagCount>) {
    forall i, j :: 0 <= i < j < |m| ==> m[i].tag != m[j].tag
  }

  /** `byTag[t] || 0`. */
  function CountOf(m: seq<TagCount>, t: string): nat {
    if m == [] then 0 else if m[0].tag == t then m[0].count else CountOf(m[1..], t)
  }

  function SumCounts(m: seq<TagCount>): nat {
    if m == [] then 0 else m[0].count + SumCounts(m[1..])
  }

  /** `byTag[t] = (byTag[t] || 0) + 1`: an existing key keeps its place, a new one goes last. */
  function Bump(m: seq<TagCount>, t: string): (r: seq<TagCount>)
    ensures t in TagKeys(m) ==> |r| == |m|
    ensures t !in TagKeys(m) ==> r == m + [TagCount(t, 1)]
  {
    if m == [] then [TagCount(t, 1)]
    else if m[0].tag == t then [TagCount(t, m[0].count + 1)] + m[1..]
    else
      TagKeysCons(m);
      assert t !in TagKeys(m) ==> m + [TagCount(t, 1)] == [m[0]] + (m[1..] + [TagCount(t, 1)]);
      [m[0]] + Bump(m[1..], t)
  }

  lemma {:induction false} BumpCounts(m: seq<TagCount>, t: string)
    ensures forall u :: CountOf(Bump(m, t), u) == CountOf(m, u) + (if u == t then 1 else 0)
    ensures SumCounts(Bump(m, t)) == SumCounts(m) + 1
  {
    if m != [] && m[0].tag != t {
      BumpCounts(m[1..], t);
      assert ([m[0]] + Bump(m[1..], t))[1..] == Bump(m[1..], t);
    }
  }

  lemma {:induction false} BumpKeys(m: seq<TagCount>, t: string)
    requires DistinctTags(m)
    ensures TagKeys(Bump(m, t)) == TagKeys(m) + {t}
    ensures DistinctTags(Bump(m, t))
  {
    var r := Bump(m, t);
    if m == [] {
      TagKeysCons(r);
    } else if m[0].tag == t {
      TagKeysCons(m);
      TagKeysCons(r);
      assert r[1..] == m[1..];
      forall i, j | 0 <= i < j < |r| ensures r[i].tag != r[j].tag {
        assert r[j] == m[j];
        if i > 0 { assert r[i] == m[i]; }
      }
    } else {
      DistinctTail(m);
      BumpKeys(m[1..], t);
      var rest := Bump(m[1..], t);
      TagKeysCons(m);
      TagKeysCons(r);
      assert r[1..] == rest;
      forall i, j | 0 <= i < j < |r| ensures r[i].tag != r[j].tag {
        assert r[j] == rest[j - 1];
        if i == 0 {
          assert r[j].tag in TagKeys(rest);
        } else {
          assert r[i] == rest[i - 1];
        }
      }
    }
  }

  lemma DistinctTail(m: seq<TagCount>)
    requires m != [] && DistinctTags(m)
    ensures DistinctTags(m[1..])
    ensures m[0].tag !in TagKeys(m[1..])
  {
    forall i, j | 0 <= i < j < |m[1..]| ensures m[1..][i].tag != m[1..][j].tag {
      assert m[1..][i] == m[i + 1] && m[1..][j] == m[j + 1];
    }
    forall k | 0 <= k < |m[1..]| ensures m[1..][k].tag != m[0].tag {
      assert m[1..][k] == m[k + 1];
    }
  }

  lemma TagKeysCons(m: seq<TagCount>)
    requires m != []
    ensures TagKeys(m) == {m[0].tag} + TagKeys(m[1..])
  {
    forall u | u in TagKeys(m) ensures u in {m[0].tag} + TagKeys(m[1..]) {
      var i :| 0 <= i < |m| && m[i].tag == u;
      if i > 0 { assert m[1..][i - 1] == m[i]; }
    }
    forall u | u in TagKeys(m[1..]) ensures u in TagKeys(m) {
      var i :| 0 <= i < |m[1..]| && m[1..][i].tag == u;
      assert m[i + 1].tag == u;
    }
  }

  /** The set of tags carried by records of `s`. */
  function TagsOf(s: seq<Achievement>): set<string> {
    set i | 0 <= i < |s| :: s[i].tag
  }

  lemma TagsOfCons(s: seq<Achievement>)
    requires s != []
    ensures TagsOf(s) == {s[0].tag} + TagsOf(s[1..])
  {
    forall u | u in TagsOf(s) ensures u in {s[0].tag} + TagsOf(s[1..]) {
      var i :| 0 <= i < |s| && s[i].tag == u;
      if i > 0 { assert s[1..][i - 1] == s[i]; }
    }
    forall u | u in TagsOf(s[1..]) ensures u in TagsOf(s) {
      var i :| 0 <= i < |s[1..]| && s[1..][i].tag == u;
      assert s[i + 1].tag == u;
    }
  }

  /** `achievements.forEach(...)` over `s`, starting from the table `acc`. */
  function ByTagFrom(acc: seq<TagCount>, s: seq<Achievement>): seq<TagCount>
    decreases s
  {
    if s == [] then acc else ByTagFrom(Bump(acc, s[0].tag), s[1..])
  }

  lemma {:induction false} ByTagFromKeys(acc: seq<TagCount>, s: seq<Achievement>)
    requires DistinctTags(acc)
    ensures DistinctTags(ByTagFrom(acc, s))
    ensures TagKeys(ByTagFrom(acc, s)) == TagKeys(acc) + TagsOf(s)
    decreases s
  {
    if s != [] {
      TagsOfCons(s);
      BumpKeys(acc, s[0].tag);
      ByTagFromKeys(Bump(acc, s[0].tag), s[1..]);
    }
  }

  lemma {:induction false} ByTagFromCounts(acc: seq<TagCount>, s: seq<Achievement>)
    ensures forall u :: CountOf(ByTagFrom(acc, s), u) == CountOf(acc, u) + CountTag(s, u)
    ensures SumCounts(ByTagFrom(acc, s)) == SumCounts(acc) + |s|
    decreases s
  {
    if s != [] {
      BumpCounts(acc, s[0].tag);
      ByTagFromCounts(Bump(acc, s[0].tag), s[1..]);
    }
  }

  /** The `byTag` table: one key per tag present, counting its records, in first-seen order. */
  function ByTag(s: seq<Achievement>): (r: seq<TagCount>)
    ensures DistinctTags(r)
    ensures TagKeys(r) == TagsOf(s)
    ensures forall u :: CountOf(r, u) == CountTag(s, u)
    ensures SumCounts(r) == |s|
  {
    ByTagFromKeys([], s);
    ByTagFromCounts([], s);
    ByTagFrom([], s)
  }

  /**
   * `new Date(createdAt || date)` in milliseconds; None is an invalid date.
   * The creation stamp wins whenever it is present.
   */
  function Timestamp(a: Achievement, parseDate: string -> Option<int>): (r: Option<int>)
    ensures a.createdAt.Some? ==> r == a.createdAt
    ensures r.Some? <==> a.createdAt.Some? || (a.date.Some? && parseDate(a.date.value).Some?)
  {
    if a.createdAt.Some? then a.createdAt
    else if a.date.Some? then parseDate(a.date.value)
    else None
  }

  /**
   * `Math.floor((now - date) / DAY_MS)`: whole days since the timestamp,
   * negative for a future one. Dafny's `/` floors for a positive divisor.
   */
  function DaysAgo(a: Achievement, now: int, parseDate: string -> Option<int>): (r: Option<int>)
    ensures r.None? <==> Timestamp(a, parseDate).None?
    ensures Timestamp(a, parseDate).Some? ==>
      r.Some? && r.value * DAY_MS <= now - Timestamp(a, parseDate).value < (r.value + 1) * DAY_MS
  {
    match Timestamp(a, parseDate)
    case None => None
    case Some(ts) => Some((now - ts) / DAY_MS)
  }

  /** The number of records `d` days old. */
  function CountDay(s: seq<Achievement>, d: int, now: int, parseDate: string -> Option<int>): (n: nat)
    ensures n <= |s|
  {
    if s == [] then 0
    else (if DaysAgo(s[0], now, parseDate) == Some(d) then 1 else 0) + CountDay(s[1..], d, now, parseDate)
  }

  /** The number of records whose age in days lies in `lo..hi - 1`. */
  function CountWindow(s: seq<Achievement>, lo: int, hi: int, now: int, parseDate: string -> Option<int>): (n: nat)
    ensures n <= |s|
  {
    if s == [] then 0
    else
      var d := DaysAgo(s[0], now, parseDate);
      (if d.Some? && lo <= d.value < hi then 1 else 0) + CountWindow(s[1..], lo, hi, now, parseDate)
  }

  /** Widening a window by one day adds that day's records. */
  lemma {:induction false} CountWindowStep(s: seq<Achievement>, lo: int, hi: int, now: int, parseDate: string -> Option<int>)
    requires lo <= hi
    ensures CountWindow(s, lo, hi + 1, now, parseDate) == CountWindow(s, lo, hi, now, parseDate) + CountDay(s, hi, now, parseDate)
  {
    if s != [] {
      CountWindowStep(s[1..], lo, hi, now, parseDate);
    }
  }

  /** The `last7Days` table: a day counts when it is at most 7 days old, future days included. */
  function Last7Days(s: seq<Achievement>, now: int, parseDate: string -> Option<int>): (r: map<int, nat>)
    ensures forall d :: d in r <==> d <= 7 && CountDay(s, d, now, parseDate) > 0
    ensures forall d | d in r :: r[d] == CountDay(s, d, now, parseDate)
  {
    if s == [] then map[]
    else
      var m := Last7Days(s[1..], now, parseDate);
      match DaysAgo(s[0], now, parseDate)
      case Some(d) =>
        if d <= 7 then m[d := (if d in m then m[d] else 0) + 1] else m
      case None => m
  }

  function GetStatistics(s: seq<Achievement>, now: int, parseDate: string -> Option<int>): (r: Statistics)
    ensures r.total == |s|
    ensures SumCounts(r.byTag) == r.total
    ensures TagKeys(r.byTag) == TagsOf(s) && DistinctTags(r.byTag)
    ensures forall u :: CountOf(r.byTag, u) == CountTag(s, u)
    ensures forall d :: d in r.last7Days <==> d <= 7 && CountDay(s, d, now, parseDate) > 0
    ensures forall d | d in r.last7Days :: r.last7Days[d] == CountDay(s, d, now, parseDate)
  {
    Statistics(|s|, ByTag(s), Last7Days(s, now, parseDate))
  }

  // ---------------------------------------------------- export / import

  /** The export envelope; `exportDate` is the ISO text of the export moment. */
  datatype Envelope = Envelope(achievements: seq<Achievement>, exportDate: string, version: string, count: nat)

  const EXPORT_VERSION: string := "1.0"

  function ExportData(s: seq<Achievement>, exportDate: string): (r: Envelope)
    ensures r.achievements == s && r.count == |r.achievements|
    ensures r.version == "1.0" && r.exportDate == exportDate
  {
    Envelope(s, exportDate, EXPORT_VERSION, |s|)
  }

  /**
   * One element of an incoming `achievements` array: anything that is not
   * an object (null, a number, a string, a boolean), or an object read
   * through the record's fields. A missing `title` reads as "".
   */
  datatype Item = NonObject | Object(record: Achievement)

  /**
   * The outcome of `JSON.parse` on the import text: unparseable text, the
   * `null` document, or a value whose `achievements` property is an array
   * (Some) or is missing, falsy or not an array (None).
   */
  datatype Parsed = Unparseable | NullDocument | Document(achievements: Option<seq<Item>>)

  /** `JSON.parse(JSON.stringify(envelope))`, read back through the import abstraction. */
  function Encode(e: Envelope): (r: Parsed)
    ensures r.Document? && r.achievements.Some?
  {
    Document(Some(Objects(e.achievements)))
  }

  /** Each record written out as a JSON object and read back. */
  function Objects(s: seq<Achievement>): (r: seq<Item>)
    ensures |r| == |s|
    ensures forall i :: 0 <= i < |s| ==> r[i] == Object(s[i])
  {
    if s == [] then [] else [Object(s[0])] + Objects(s[1..])
  }

  datatype ImportError = MalformedJson | NullDocumentError | MissingCollection

  datatype Imported = Imported(items: seq<Achievement>, accepted: nat)

  /** `item && typeof item === 'object' && item.title`. */
  predicate Acceptable(x: Item) {
    x.Object? && x.record.title != ""
  }

  /** The kept elements of the incoming array, in their order. */
  function Valid(xs: seq<Item>): (r: seq<Achievement>)
    ensures |r| <= |xs|
    ensures forall a :: a in r <==> Object(a) in xs && a.title != ""
  {
    if xs == [] then []
    else
      assert forall i :: 1 <= i < |xs| ==> xs[i] == xs[1..][i - 1];
      (if Acceptable(xs[0]) then [xs[0].record] else []) + Valid(xs[1..])
  }

  /**
   * `importData(text)`: fails on unparseable text, on the `null` document and
   * on a missing collection; otherwise the acceptable entries become the new
   * collection and their number is returned.
   */
  function ImportData(p: Parsed): (r: Result<Imported, ImportError>)
    ensures p.Unparseable? <==> r == Failure(MalformedJson)
    ensures p.NullDocument? <==> r == Failure(NullDocumentError)
    ensures (p.Document? && p.achievements.None?) <==> r == Failure(MissingCollection)
    ensures r.Success? ==> r.value.accepted == |r.value.items|
    ensures r.Success? ==> forall a :: a in r.value.items <==> Object(a) in p.achievements.value && a.title != ""
    ensures r.Success? ==> r.value.items == Valid(p.achievements.value)
  {
    match p
    case Unparseable => Failure(MalformedJson)
    case NullDocument => Failure(NullDocumentError)
    case Document(None) => Failure(MissingCollection)
    case Document(Some(xs)) =>
      var v := Valid(xs);
      Success(Imported(v, |v|))
  }

  /**
   * The filter distributes over concatenation, so together with its
   * one-element cases it keeps every acceptable entry, in order, as often as
   * it occurs.
   */
  lemma {:induction false} ValidConcat(a: seq<Item>, b: seq<Item>)
    ensures Valid(a + b) == Valid(a) + Valid(b)
  {
    if a == [] {
      assert a + b == b;
    } else {
      assert (a + b)[0] == a[0];
      assert (a + b)[1..] == a[1..] + b;
      ValidConcat(a[1..], b);
    }
  }

  /** A single entry is kept exactly when it is an object with a title. */
  lemma ValidSingle(x: Item)
    ensures Valid([x]) == if Acceptable(x) then [x.record] else []
  {
    assert [x][1..] == [];
  }

  /** An entry given twice is imported twice and counted twice. */
  lemma ImportKeepsRepeats(a: Achievement)
    requires a.title != ""
    ensures ImportData(Document(Some([Object(a), Object(a)]))) == Success(Imported([a, a], 2))
  {
    var xs := [Object(a), Object(a)];
    assert xs == [Object(a)] + [Object(a)];
    ValidConcat([Object(a)], [Object(a)]);
    ValidSingle(Object(a));
    assert Valid(xs) == [a, a];
    assert ImportData(Document(Some(xs))) == Success(Imported(Valid(xs), |Valid(xs)|));
  }

  lemma {:induction false} ValidOfAllTitled(s: seq<Achievement>)
    requires forall i :: 0 <= i < |s| ==> s[i].title != ""
    ensures Valid(Objects(s)) == s
  {
    if s != [] {
      assert Objects(s)[1..] == Objects(s[1..]);
      ValidOfAllTitled(s[1..]);
    }
  }

  /** Importing an export gives the same collection back when every title is non-empty. */
  lemma ExportImportRoundTrip(s: seq<Achievement>, exportDate: string)
    requires forall i :: 0 <= i < |s| ==> s[i].title != ""
    ensures ImportData(Encode(ExportData(s, exportDate))) == Success(Imported(s, |s|))
  {
    ValidOfAllTitled(s);
  }
}

=== FILE: api.dfy ===
/**
 * The CRUD endpoints of the backend over a table of rows keyed by id.
 * Request bodies are parsed by `Schemas` before a handler runs, so a body
 * that fails validation answers 422 whatever the table holds.
 */
module Api {
  import opened Wrappers
  import opened Schemas
  import opened Auth
  import opened Text

  /** One row of the `achievements` table. */
  datatype Row = Row(id: int, title: string, description: Option<string>, target: int, current: int, category: string)

  /**
   * The table as its rows in rowid order, the order in which it is stored
   * and scanned (the category index also lists equal categories by rowid).
   */
  type Table = seq<Row>

  /** Row ids strictly increase along the table, so each id names at most one row. */
  predicate Ordered(t: Table) {
    forall i, j :: 0 <= i < j < |t| ==> t[i].id < t[j].id
  }

  predicate HasRow(t: Table, id: int) {
    exists i :: 0 <= i < |t| && t[i].id == id
  }

  const NOT_FOUND_DETAIL := "成就不存在"
  const DELETED_MESSAGE := "删除成功"
  /** The message of the catch-all exception handler. */
  const SERVER_ERROR_MESSAGE := "服务器内部错误"

  datatype ApiError =
    | NotFound(detail: string)
    | Unprocessable(violations: seq<Violation>)
    | Forbidden(denied: Denied)
    | ServerError(message: string)

  function Status(e: ApiError): int {
    match e
    case NotFound(_) => 404
    case Unprocessable(_) => 422
    case Forbidden(d) => d.status
    case ServerError(_) => 500
  }

  const INT64_MIN: int := -0x8000_0000_0000_0000
  const INT64_MAX: int := 0x7FFF_FFFF_FFFF_FFFF

  /**
   * An SQLite INTEGER is a signed 64-bit number. Python's `sqlite3` refuses
   * to bind an `int` outside that range, and the exception reaches the
   * catch-all handler as a 500.
   */
  predicate Binds(n: int) {
    INT64_MIN <= n <= INT64_MAX
  }

  /** A handler's effect: the table afterwards and the response. */
  datatype Response<T> = Response(table: Table, result: Result<T, ApiError>)

  /** The position of the row with `id` (the `.first()` of the id query), or -1. */
  function IndexOf(t: Table, id: int): (r: int)
    ensures -1 <= r < |t|
    ensures r == -1 <==> !HasRow(t, id)
    ensures r >= 0 ==> t[r].id == id && forall i :: 0 <= i < r ==> t[i].id != id
  {
    if t == [] then -1
    else if t[0].id == id then 0
    else
      var k := IndexOf(t[1..], id);
      assert forall i :: 0 < i < |t| ==> t[i] == t[1..][i - 1];
      if k == -1 then -1 else k + 1
  }

  // ---------- create ----------

  /** The rowid the database assigns on insert: one past the largest, or 1 in an empty table. */
  function NextRowId(t: Table): (id: int)
    ensures t == [] ==> id == 1
    ensures Ordered(t) ==> forall i :: 0 <= i < |t| ==> t[i].id < id
    ensures Ordered(t) && t != [] ==> HasRow(t, id - 1) && !HasRow(t, id)
  {
    if t == [] then 1 else t[|t| - 1].id + 1
  }

  /** `POST /achievements`: a valid body is appended under the next rowid and returned as stored. */
  function CreateAchievement(t: Table, p: CreatePayload): (r: Response<Row>)
    ensures r.result.Failure? <==> ValidateCreate(p).Failure?
    ensures r.result.Failure? ==> r == Response(t, Failure(Unprocessable(ValidateCreate(p).error)))
    ensures r.result.Success? ==>
      var row := r.result.value;
      var a := ValidateCreate(p).value;
      && r.table == t + [row]
      && row.title == a.title && row.description == a.description && row.target == a.target
      && row.current == a.current && row.category == a.category
      && (t == [] ==> row.id == 1)
      && (forall i :: 0 <= i < |t| && Ordered(t) ==> t[i].id < row.id)
  {
    var v := ValidateCreate(p);
    if v.Failure? then Response(t, Failure(Unprocessable(v.error)))
    else
      var a := v.value;
      var row := Row(NextRowId(t), a.title, a.description, a.target, a.current, a.category);
      Response(t + [row], Success(row))
  }

  /** Creation uses an id no row has, and keeps the table ordered. */
  lemma CreateKeepsOrder(t: Table, p: CreatePayload)
    requires Ordered(t)
    requires CreateAchievement(t, p).result.Success?
    ensures !HasRow(t, CreateAchievement(t, p).result.value.id)
    ensures Ordered(CreateAchievement(t, p).table)
  {
    var r := CreateAchievement(t, p);
    var row := r.result.value;
    assert forall i :: 0 <= i < |t| ==> r.table[i] == t[i];
    assert r.table[|t|] == row;
  }

  /** Omitting the current value stores 0. */
  lemma CreateDefaultsCurrentToZero(t: Table, p: CreatePayload)
    requires p.current == None
    requires CreateAchievement(t, p).result.Success?
    ensures CreateAchievement(t, p).result.value.current == 0
  {
  }

  // ---------- read ----------

  /** `if category:` — no filter for an absent or empty category. */
  predicate Filters(category: Option<string>) {
    category.Some? && category.value != ""
  }

  function FilterCategory(rows: seq<Row>, c: string): (r: seq<Row>)
    ensures forall i :: 0 <= i < |r| ==> r[i].category == c
    ensures forall x :: x in r <==> x in rows && x.category == c
    ensures |r| <= |rows|
  {
    if rows == [] then []
    else (if rows[0].category == c then [rows[0]] else []) + FilterCategory(rows[1..], c)
  }

  /**
   * The filter distributes over concatenation, so together with its one-row
   * cases it keeps the matching rows in table order, each once.
   */
  lemma {:induction false} FilterCategoryConcat(a: seq<Row>, b: seq<Row>, c: string)
    ensures FilterCategory(a + b, c) == FilterCategory(a, c) + FilterCategory(b, c)
  {
    if a == [] {
      assert a + b == b;
    } else {
      assert (a + b)[0] == a[0];
      assert (a + b)[1..] == a[1..] + b;
      FilterCategoryConcat(a[1..], b, c);
    }
  }

  /** A single row is kept exactly when it has the category. */
  lemma FilterCategorySingle(x: Row, c: string)
    ensures FilterCategory([x], c) == if x.category == c then [x] else []
  {
    assert [x][1..] == [];
  }

  /** The rows the query selects before paging. */
  function Matching(t: Table, category: Option<string>): seq<Row> {
    if Filters(category) then FilterCategory(t, category.value) else t
  }

  /** SQL `OFFSET skip LIMIT limit`: a negative offset counts as 0 and a negative limit means no limit. */
  function Page(rows: seq<Row>, skip: int, limit: int): (r: seq<Row>)
    ensures limit >= 0 ==> |r| <= limit
    ensures var from := if skip < 0 then 0 else if skip > |rows| then |rows| else skip;
      && from + |r| <= |rows|
      && r == rows[from..from + |r|]
    ensures var from := if skip < 0 then 0 else skip;
      |r| == if from >= |rows| then 0 else if limit < 0 || from + limit > |rows| then |rows| - from else limit
  {
    var from := if skip < 0 then 0 else if skip > |rows| then |rows| else skip;
    var rest := rows[from..];
    if 0 <= limit < |rest| then rest[..limit] else rest
  }

  /** The stored row as the body the response model validates. */
  function RowPayload(row: Row): CreatePayload {
    CreatePayload(Some(row.title), row.description, Some(row.target), Some(row.current), Some(row.category))
  }

  /**
   * `response_model=schemas.Achievement`: a returned row is read back through
   * the create schema plus its id. A row breaking any of its checks fails;
   * otherwise the row is returned with its title stripped.
   */
  function ResponseRow(row: Row): (r: Option<Row>)
    ensures r.Some? <==> ValidCreate(RowPayload(row))
    ensures r.Some? ==> r.value == row.(title := Strip(row.title, IsPySpace))
  {
    ValidateCreateIffValid(RowPayload(row));
    match ValidateCreate(RowPayload(row))
    case Failure(_) => None
    case Success(a) => Some(Row(row.id, a.title, a.description, a.target, a.current, a.category))
  }

  /** The values of a list of options when every one is present, else `None`. */
  function AllPresent<T>(xs: seq<Option<T>>): (r: Option<seq<T>>)
    ensures r.Some? <==> forall i :: 0 <= i < |xs| ==> xs[i].Some?
    ensures r.Some? ==> |r.value| == |xs| && forall i :: 0 <= i < |xs| ==> r.value[i] == xs[i].value
  {
    if xs == [] then Some([])
    else
      assert forall i :: 0 < i < |xs| ==> xs[i] == xs[1..][i - 1];
      var tail := AllPresent(xs[1..]);
      if xs[0].None? || tail.None? then None else Some([xs[0].value] + tail.value)
  }

  /** `list[schemas.Achievement]`: each row read back through the response model. */
  function ResponseRows(rows: seq<Row>): (r: seq<Option<Row>>)
    ensures |r| == |rows| && forall i :: 0 <= i < |rows| ==> r[i] == ResponseRow(rows[i])
  {
    seq(|rows|, i requires 0 <= i < |rows| => ResponseRow(rows[i]))
  }

  /**
   * `GET /achievements`: the key check first, then the category filter and
   * the page; an offset or limit SQLite cannot bind is a 500, and the page
   * goes through the response model, where a refused row is a 500 too.
   */
  function ReadAchievements(t: Table, skip: int, limit: int, category: Option<string>,
                            apiKey: Option<string>, expected: string): (r: Response<seq<Row>>)
    ensures r.table == t
    ensures VerifyApiKey(apiKey, expected).Failure? ==>
      r.result == Failure(Forbidden(VerifyApiKey(apiKey, expected).error))
    ensures VerifyApiKey(apiKey, expected).Success? && !(Binds(skip) && Binds(limit)) ==>
      r.result == Failure(ServerError(SERVER_ERROR_MESSAGE))
    ensures VerifyApiKey(apiKey, expected).Success? && Binds(skip) && Binds(limit) ==>
      r.result == Served(Page(Matching(t, category), skip, limit))
  {
    match VerifyApiKey(apiKey, expected)
    case Failure(d) => Response(t, Failure(Forbidden(d)))
    case Success(_) =>
      if Binds(skip) && Binds(limit) then Response(t, Served(Page(Matching(t, category), skip, limit)))
      else Response(t, Failure(ServerError(SERVER_ERROR_MESSAGE)))
  }

  /** A successful listing holds at most `limit` rows, all of the requested category when one is given. */
  lemma ReadRespectsLimitAndCategory(t: Table, skip: int, limit: int, category: Option<string>,
                                     apiKey: Option<string>, expected: string)
    ensures var r := ReadAchievements(t, skip, limit, category, apiKey, expected);
      r.result.Success? ==>
        && (limit >= 0 ==> |r.result.value| <= limit)
        && (Filters(category) ==> forall i :: 0 <= i < |r.result.value| ==> r.result.value[i].category == category.value)
  {
    var r := ReadAchievements(t, skip, limit, category, apiKey, expected);
    if r.result.Success? {
      var rows := Matching(t, category);
      var page := Page(rows, skip, limit);
      assert r.result == Served(page);
      ServedFacts(page);
      if Filters(category) {
        PageDrawsOnRows(rows, skip, limit);
      }
    }
  }

  /** Every row of a page is one of the paged rows. */
  lemma PageDrawsOnRows(rows: seq<Row>, skip: int, limit: int)
    ensures forall i :: 0 <= i < |Page(rows, skip, limit)| ==> Page(rows, skip, limit)[i] in rows
  {
    var page := Page(rows, skip, limit);
    var from := if skip < 0 then 0 else if skip > |rows| then |rows| else skip;
    forall i | 0 <= i < |page| ensures page[i] in rows {
      assert page[i] == rows[from + i];
    }
  }

  /** The answer for a page: the rows as the response model returns them, or the catch-all 500. */
  function Served(page: seq<Row>): (r: Result<seq<Row>, ApiError>)
    ensures r.Success? <==> forall i :: 0 <= i < |page| ==> ResponseRow(page[i]).Some?
    ensures r.Failure? ==> r.error == ServerError(SERVER_ERROR_MESSAGE)
    ensures r.Success? ==> |r.value| == |page| && forall i :: 0 <= i < |page| ==> r.value[i] == ResponseRow(page[i]).value
  {
    match AllPresent(ResponseRows(page))
    case None => Failure(ServerError(SERVER_ERROR_MESSAGE))
    case Some(rows) => Success(rows)
  }

  /** The response model keeps the number of rows and each row's category. */
  lemma ServedFacts(page: seq<Row>)
    ensures Served(page).Success? ==> |Served(page).value| == |page|
    ensures Served(page).Success? ==> forall i :: 0 <= i < |page| ==> Served(page).value[i].category == page[i].category
  {
  }

  /** A row the create endpoint stored passes the response model unchanged. */
  lemma CreatedRowReadsBack(t: Table, p: CreatePayload)
    requires CreateAchievement(t, p).result.Success?
    ensures var row := CreateAchievement(t, p).result.value;
      ResponseRow(row) == Some(row)
  {
    var row := CreateAchievement(t, p).result.value;
    var a := ValidateCreate(p).value;
    AcceptedCreateIsWellFormed(p);
    ValidateCreateIffValid(p);
    assert row.description == p.description;
    assert ValidCreate(RowPayload(row));
    StripIdempotent(p.title.value, IsPySpace);
    assert Strip(row.title, IsPySpace) == row.title;
    assert row.(title := Strip(row.title, IsPySpace)) == row;
  }

  /**
   * An update may store a current value above the target; listing that row
   * afterwards fails with 500, because the response model refuses it.
   */
  lemma OverTargetRowBreaksRead()
    ensures var t := [Row(1, "a", None, 5, 0, "c")];
      var u := UpdateAchievement(t, 1, UpdatePayload(None, None, None, Some(6), None));
      var r := ReadAchievements(u.table, 0, 100, None, Some(HARDCODED_KEY), HARDCODED_KEY);
      u.result.Success? && r.result == Failure(ServerError(SERVER_ERROR_MESSAGE)) && Status(r.result.error) == 500
  {
    var t := [Row(1, "a", None, 5, 0, "c")];
    UpdateCanExceedTarget();
    var u := UpdateAchievement(t, 1, UpdatePayload(None, None, None, Some(6), None));
    assert |u.table| == 1;
    var page := Page(Matching(u.table, None), 0, 100);
    assert page == u.table;
    assert !ValidCreate(RowPayload(page[0]));
  }

  /** Consecutive pages of the same size tile the filtered rows without gap or overlap. */
  lemma {:induction false} PagesTile(rows: seq<Row>, skip: nat, limit: nat)
    ensures Page(rows, skip, limit) + Page(rows, skip + limit, limit) == Page(rows, skip, 2 * limit)
  {
    var a, b, c := Page(rows, skip, limit), Page(rows, skip + limit, limit), Page(rows, skip, 2 * limit);
    if skip + limit <= |rows| {
      assert a == rows[skip..skip + limit];
      assert c == rows[skip..skip + |c|];
      assert b == rows[skip + limit..skip + limit + |b|];
      assert skip + limit + |b| == skip + |c|;
      assert rows[skip..skip + |c|] == rows[skip..skip + limit] + rows[skip + limit..skip + |c|];
    } else {
      assert b == [];
      assert |a| == |c|;
    }
  }

  // ---------- update ----------

  /** `setattr` for every field set in the body; unset fields keep their stored value. */
  function ApplyUpdate(row: Row, p: UpdatePayload): (r: Row)
    ensures r.id == row.id
    ensures r.title == p.title.GetOr(row.title)
    ensures r.description == p.description.GetOr(row.description)
    ensures r.target == p.target.GetOr(row.target)
    ensures r.current == p.current.GetOr(row.current)
    ensures r.category == p.category.GetOr(row.category)
  {
    Row(row.id, p.title.GetOr(row.title), p.description.GetOr(row.description),
        p.target.GetOr(row.target), p.current.GetOr(row.current), p.category.GetOr(row.category))
  }

  /** The integer fields of an update body all bind as SQLite integers. */
  predicate UpdateBinds(p: UpdatePayload) {
    (p.target.None? || Binds(p.target.value)) && (p.current.None? || Binds(p.current.value))
  }

  /**
   * `PUT /achievements/{id}`: 422 for an invalid body; then the id query,
   * 500 for an id SQLite cannot bind and 404 for a missing row; then the
   * commit, 500 with nothing written for a value SQLite cannot bind;
   * else the changed row.
   */
  function UpdateAchievement(t: Table, id: int, p: UpdatePayload): (r: Response<Row>)
    ensures r.result.Failure? ==> r.table == t
    ensures ValidateUpdate(p).Failure? ==> r.result == Failure(Unprocessable(ValidateUpdate(p).error))
    ensures ValidateUpdate(p).Success? && !Binds(id) ==> r.result == Failure(ServerError(SERVER_ERROR_MESSAGE))
    ensures ValidateUpdate(p).Success? && Binds(id) && !HasRow(t, id) ==> r.result == Failure(NotFound(NOT_FOUND_DETAIL))
    ensures ValidateUpdate(p).Success? && Binds(id) && HasRow(t, id) && !UpdateBinds(p) ==>
      r.result == Failure(ServerError(SERVER_ERROR_MESSAGE))
    ensures r.result.Success? <==> ValidateUpdate(p).Success? && Binds(id) && HasRow(t, id) && UpdateBinds(p)
    ensures r.result.Success? ==>
      && |r.table| == |t|
      && (forall i :: 0 <= i < |t| ==> r.table[i].id == t[i].id)
      && (forall i :: 0 <= i < |t| && t[i].id != id ==> r.table[i] == t[i])
      && (Ordered(t) ==> forall i :: 0 <= i < |t| && t[i].id == id ==> r.table[i] == r.result.value)
      && (Ordered(t) ==> exists i :: 0 <= i < |t| && t[i].id == id && r.result.value == ApplyUpdate(t[i], p))
  {
    match ValidateUpdate(p)
    case Failure(vs) => Response(t, Failure(Unprocessable(vs)))
    case Success(_) =>
      var k := IndexOf(t, id);
      if !Binds(id) then Response(t, Failure(ServerError(SERVER_ERROR_MESSAGE)))
      else if k == -1 then Response(t, Failure(NotFound(NOT_FOUND_DETAIL)))
      else if !UpdateBinds(p) then Response(t, Failure(ServerError(SERVER_ERROR_MESSAGE)))
      else
        assert Ordered(t) ==> forall i :: 0 <= i < |t| && t[i].id == t[k].id ==> i == k by {
          if Ordered(t) { OrderedIdsUnique(t, k); }
        }
        var row := ApplyUpdate(t[k], p);
        Response(t[k := row], Success(row))
  }

  /** In an ordered table the row at `k` is the only one with its id. */
  lemma OrderedIdsUnique(t: Table, k: int)
    requires Ordered(t) && 0 <= k < |t|
    ensures forall i :: 0 <= i < |t| && t[i].id == t[k].id ==> i == k
  {
  }

  /** An update keeps the table ordered: no id changes. */
  lemma UpdateKeepsOrder(t: Table, id: int, p: UpdatePayload)
    requires Ordered(t)
    ensures Ordered(UpdateAchievement(t, id, p).table)
  {
  }

  /** An empty body changes nothing in an existing row. */
  lemma EmptyUpdateIsIdentity(t: Table, k: int)
    requires 0 <= k < |t|
    requires Ordered(t) && Binds(t[k].id)
    ensures UpdateAchievement(t, t[k].id, UpdatePayload(None, None, None, None, None)) == Response(t, Success(t[k]))
  {
    var p := UpdatePayload(None, None, None, None, None);
    OrderedIdsUnique(t, k);
    assert IndexOf(t, t[k].id) == k;
    assert t[k := ApplyUpdate(t[k], p)] == t;
  }

  /**
   * The cross-field check only sees the body, so an update that sets the
   * current value alone can leave a row whose current exceeds its target.
   */
  lemma UpdateCanExceedTarget()
    ensures var t := [Row(1, "a", None, 5, 0, "c")];
      var r := UpdateAchievement(t, 1, UpdatePayload(None, None, None, Some(6), None));
      r.result.Success? && r.result.value.current > r.result.value.target
  {
    var p := UpdatePayload(None, None, None, Some(6), None);
    assert ValidUpdate(p);
    ValidateUpdateIffValid(p);
    var t := [Row(1, "a", None, 5, 0, "c")];
    assert t[0].id == 1;
    assert HasRow(t, 1);
  }

  // ---------- delete ----------

  /**
   * `DELETE /achievements/{id}`: 500 for an id SQLite cannot bind, 404 for a
   * missing id, else that row is removed and the rest keep their order.
   */
  function DeleteAchievement(t: Table, id: int): (r: Response<string>)
    ensures !Binds(id) ==> r == Response(t, Failure(ServerError(SERVER_ERROR_MESSAGE)))
    ensures Binds(id) && !HasRow(t, id) ==> r == Response(t, Failure(NotFound(NOT_FOUND_DETAIL)))
    ensures Binds(id) && HasRow(t, id) ==> r.result == Success(DELETED_MESSAGE) && |r.table| == |t| - 1
    ensures Binds(id) && HasRow(t, id) ==> exists k :: 0 <= k < |t| && t[k].id == id && r.table == t[..k] + t[k + 1..]
    ensures Ordered(t) ==> Ordered(r.table) && (Binds(id) ==> !HasRow(r.table, id))
    ensures Ordered(t) && Binds(id) ==> forall row :: row in r.table <==> row in t && row.id != id
  {
    var k := IndexOf(t, id);
    if !Binds(id) then Response(t, Failure(ServerError(SERVER_ERROR_MESSAGE)))
    else if k == -1 then Response(t, Failure(NotFound(NOT_FOUND_DETAIL)))
    else
      DeleteFacts(t, k);
      Response(t[..k] + t[k + 1..], Success(DELETED_MESSAGE))
  }

  lemma DeleteFacts(t: Table, k: int)
    requires 0 <= k < |t|
    ensures var r := t[..k] + t[k + 1..];
      && (forall i :: 0 <= i < k ==> r[i] == t[i])
      && (forall i :: k <= i < |r| ==> r[i] == t[i + 1])
      && (Ordered(t) ==> Ordered(r) && !HasRow(r, t[k].id))
      && (Ordered(t) ==> forall row :: row in r <==> row in t && row.id != t[k].id)
  {
    var r := t[..k] + t[k + 1..];
    assert forall i :: 0 <= i < k ==> r[i] == t[i];
    assert forall i :: k <= i < |r| ==> r[i] == t[i + 1];
    if Ordered(t) {
      forall row | row in t && row.id != t[k].id
        ensures row in r
      {
        var j :| 0 <= j < |t| && t[j] == row;
        if j < k { assert r[j] == row; } else { assert r[j - 1] == row; }
      }
    }
  }

  /** Deleting the row just created restores the table it was created in. */
  lemma CreateThenDeleteRestores(t: Table, p: CreatePayload)
    requires Ordered(t)
    requires CreateAchievement(t, p).result.Success?
    requires Binds(CreateAchievement(t, p).result.value.id)
    ensures var c := CreateAchievement(t, p);
      DeleteAchievement(c.table, c.result.value.id) == Response(t, Success(DELETED_MESSAGE))
  {
    var c := CreateAchievement(t, p);
    var row := c.result.value;
    assert c.table[|t|] == row;
    assert IndexOf(c.table, row.id) == |t|;
    assert c.table[..|t|] + c.table[|t| + 1..] == t;
  }

  /**
   * Integers beyond the signed 64-bit range pass request validation but not
   * SQLite: a huge current value in an update, a huge id in a delete and a
   * huge limit in a listing each answer 500 and leave the table as it was.
   */
  lemma OutOfRangeIntegersAnswer500(t: Table)
    ensures var u := UpdateAchievement([Row(1, "a", None, 5, 0, "c")], 1,
                                       UpdatePayload(None, None, None, Some(10_000_000_000_000_000_000), None));
      u == Response([Row(1, "a", None, 5, 0, "c")], Failure(ServerError(SERVER_ERROR_MESSAGE)))
    ensures DeleteAchievement(t, INT64_MAX + 1) == Response(t, Failure(ServerError(SERVER_ERROR_MESSAGE)))
    ensures ReadAchievements(t, 0, INT64_MAX + 1, None, Some(HARDCODED_KEY), HARDCODED_KEY)
         == Response(t, Failure(ServerError(SERVER_ERROR_MESSAGE)))
  {
    var p := UpdatePayload(None, None, None, Some(10_000_000_000_000_000_000), None);
    assert ValidUpdate(p);
    ValidateUpdateIffValid(p);
    var t1 := [Row(1, "a", None, 5, 0, "c")];
    assert t1[0].id == 1;
    assert HasRow(t1, 1);
  }

  // ---------- overall statistics ----------

  predicate Completed(row: Row) {
    row.current >= row.target
  }

  /** `filter(current_value >= target_value).count()`. */
  function CompletedCount(t: Table): (n: nat)
    ensures n <= |t|
    ensures n == |t| <==> forall i :: 0 <= i < |t| ==> Completed(t[i])
    ensures n == 0 <==> forall i :: 0 <= i < |t| ==> !Completed(t[i])
  {
    if t == [] then 0
    else
      assert forall i :: 0 < i < |t| ==> t[i] == t[1..][i - 1];
      (if Completed(t[0]) then 1 else 0) + CompletedCount(t[1..])
  }

  datatype OverallCounts = OverallCounts(total: nat, completed: nat)

  /** The integer part of `GET /achievements/stats/overall`. */
  function OverallStats(t: Table): (r: OverallCounts)
    ensures r.total == |t| && r.completed <= r.total
    ensures r.completed == r.total <==> forall i :: 0 <= i < |t| ==> Completed(t[i])
    ensures r.completed == 0 <==> forall i :: 0 <= i < |t| ==> !Completed(t[i])
  {
    OverallCounts(|t|, CompletedCount(t))
  }

  /** The completed count is additive over a split table, so it counts rows and not positions. */
  lemma {:induction false} CompletedCountSplit(a: Table, b: Table)
    ensures CompletedCount(a + b) == CompletedCount(a) + CompletedCount(b)
  {
    if a != [] {
      assert (a + b)[1..] == a[1..] + b;
      CompletedCountSplit(a[1..], b);
    } else {
      assert a + b == b;
    }
  }

  /** Removing the row at `k` lowers the completed count by one exactly when that row was complete. */
  lemma {:induction false} CompletedCountRemove(t: Table, k: int)
    requires 0 <= k < |t|
    ensures CompletedCount(t[..k] + t[k + 1..]) == CompletedCount(t) - (if Completed(t[k]) then 1 else 0)
  {
    var before, after := t[..k], t[k + 1..];
    assert t == before + ([t[k]] + after);
    assert ([t[k]] + after)[1..] == after;
    CompletedCountSplit(before, [t[k]] + after);
    CompletedCountSplit(before, after);
  }

  /** Deleting a row lowers the completed count by one exactly when that row was complete. */
  lemma DeleteCompletedCount(t: Table, id: int)
    requires Binds(id) && HasRow(t, id)
    ensures var k := IndexOf(t, id);
      CompletedCount(DeleteAchievement(t, id).table) == CompletedCount(t) - (if Completed(t[k]) then 1 else 0)
  {
    var k := IndexOf(t, id);
    assert DeleteAchievement(t, id).table == t[..k] + t[k + 1..];
    CompletedCountRemove(t, k);
  }

  // ---------- cases from the backend's own tests ----------

  /** A body with title, target and category only is stored with current value 0 and the title as sent. */
  lemma CreateWithDefaults(t: Table)
    ensures var r := CreateAchievement(t, CreatePayload(Some("测试成就"), None, Some(10), None, Some("测试")));
      r.result.Success? && r.result.value.title == "测试成就" && r.result.value.current == 0
      && r.result.value.target == 10
  {
    var title := "测试成就";
    assert !IsPySpace(title[0]) && !IsPySpace(title[|title| - 1]);
    assert TrimStart(title, IsPySpace) == title;
    assert TrimEnd(title, IsPySpace) == title;
  }

  /** A spaces-only title and a negative target are both refused with 422, each naming its field. */
  lemma InvalidCreatesAreRefused(t: Table)
    ensures var r := CreateAchievement(t, CreatePayload(Some("   "), None, Some(10), None, Some("测试")));
      r == Response(t, Failure(Unprocessable([Violation(TitleField, BlankTitle)])))
    ensures var r := CreateAchievement(t, CreatePayload(Some("有效标题"), None, Some(-5), None, Some("测试")));
      r == Response(t, Failure(Unprocessable([Violation(TargetField, NotPositive)])))
  {
    var p1 := CreatePayload(Some("   "), None, Some(10), None, Some("测试"));
    assert IsBlank("   ");
    assert CreateTitleErrors(p1.title) == [Violation(TitleField, BlankTitle)];
    assert CreateCategoryErrors(p1.category) == [];
    assert CreateErrors(p1) == [Violation(TitleField, BlankTitle)];
    var p2 := CreatePayload(Some("有效标题"), None, Some(-5), None, Some("测试"));
    assert !IsPySpace(p2.title.value[0]);
    assert CreateTitleErrors(p2.title) == [];
    assert CreateCategoryErrors(p2.category) == [];
    assert CreateErrors(p2) == [Violation(TargetField, NotPositive)];
  }

  /** Updating title and current leaves the target as it was. */
  lemma PartialUpdateKeepsTarget(t: Table, k: int)
    requires Ordered(t) && 0 <= k < |t| && Binds(t[k].id)
    requires t[k].target == 10
    ensures var r := UpdateAchievement(t, t[k].id, UpdatePayload(Some("更新后"), None, None, Some(5), None));
      r.result.Success? && r.result.value.title == "更新后" && r.result.value.current == 5
      && r.result.value.target == 10
  {
    var p := UpdatePayload(Some("更新后"), None, None, Some(5), None);
    assert ValidUpdate(p);
    ValidateUpdateIffValid(p);
    assert HasRow(t, t[k].id);
    OrderedIdsUnique(t, k);
  }

  /** The list endpoint refuses a request without the key header with 403, whatever the table holds. */
  lemma ReadWithoutKeyIsForbidden(t: Table, skip: int, limit: int, category: Option<string>, env: Option<string>)
    ensures ReadAchievements(t, skip, limit, category, None, ExpectedKey(env)) == Response(t, Failure(Forbidden(MISSING_KEY)))
    ensures Status(ReadAchievements(t, skip, limit, category, None, ExpectedKey(env)).result.error) == 403
  {
  }
}

=== FILE: auth.dfy ===
/** The `X-API-Key` header check that guards the list endpoint. */
module Auth {
  import opened Wrappers

  const API_KEY_NAME := "X-API-Key"
  /** The fallback used when the environment has no `API_KEY`. */
  const ENV_FALLBACK_KEY := "your-secret-key-here"
  /** The key assigned at the end of module initialisation. */
  const HARDCODED_KEY := "test123"
  const FORBIDDEN := 403

  /** `os.getenv("API_KEY", "your-secret-key-here")`: the key the module reads first. */
  function EnvKey(env: Option<string>): string {
    env.GetOr(ENV_FALLBACK_KEY)
  }

  /**
   * The expected key once the module has loaded. The key read from the
   * environment is bound first and then rebound to the hardcoded key, so
   * the environment has no effect.
   */
  function ExpectedKey(env: Option<string>): (r: string)
    ensures r == HARDCODED_KEY
    ensures r == EnvKey(env) <==> env == Some(HARDCODED_KEY)
  {
    HARDCODED_KEY
  }

  /** The environment never influences the expected key. */
  lemma ExpectedKeyIgnoresEnvironment(e1: Option<string>, e2: Option<string>)
    ensures ExpectedKey(e1) == ExpectedKey(e2) == HARDCODED_KEY
    ensures ExpectedKey(Some(ENV_FALLBACK_KEY)) != ENV_FALLBACK_KEY
  {
  }

  datatype Denied = Denied(status: int, detail: string)

  const MISSING_KEY := Denied(FORBIDDEN, "缺少API Key")
  const INVALID_KEY := Denied(FORBIDDEN, "无效的API Key")

  /** `verify_api_key`: an absent or empty header is missing, a different one invalid, a matching one returned. */
  function VerifyApiKey(header: Option<string>, expected: string): (r: Result<string, Denied>)
    ensures r.Failure? ==> r.error.status == FORBIDDEN
    ensures (header == None || header == Some("")) <==> r == Failure(MISSING_KEY)
    ensures r.Success? <==> header.Some? && header.value != "" && header.value == expected
    ensures r.Success? ==> header == Some(r.value)
  {
    if header == None || header.value == "" then Failure(MISSING_KEY)
    else if header.value != expected then Failure(INVALID_KEY)
    else Success(header.value)
  }

  /** Only the hardcoded key is ever accepted, whatever the environment says. */
  lemma OnlyHardcodedKeyPasses(env: Option<string>, header: Option<string>)
    ensures VerifyApiKey(header, ExpectedKey(env)).Success? <==> header == Some(HARDCODED_KEY)
    ensures env.Some? && env.value != HARDCODED_KEY ==> VerifyApiKey(env, ExpectedKey(env)).Failure?
  {
  }
}

=== FILE: backups.dfy ===
/**
 * `src/utils/strage.jsx`: timestamped copies of the stored list under
 * `<key>-backup-<ms>`, restore from such a copy, the newest-first listing and
 * pruning down to the five newest. The file extends `storage.js` and shares
 * its `ACHIEVEMENTS_KEY`.
 */
module Backups {
  import opened Wrappers
  import opened Entities
  import opened Storage
  import opened Text
  import opened Sorting

  const BACKUP_PREFIX: string := ACHIEVEMENTS_KEY + "-backup-"

  /** How many backups `cleanupOldBackups` keeps. */
  const KEEP: nat := 5

  /** The key a backup taken at `Date.now() == now` is written under. */
  function BackupKey(now: nat): (r: string)
    ensures StartsWith(r, BACKUP_PREFIX)
    ensures r != ACHIEVEMENTS_KEY
  {
    var r := BACKUP_PREFIX + NatToString(now);
    assert r[..|BACKUP_PREFIX|] == BACKUP_PREFIX;
    r
  }

  // ------------------------------------------------------------ backup

  datatype BackedUp = BackedUp(key: Option<string>, store: LocalStore)

  /** The primary key holds text `backupAchievements` would copy. */
  predicate HasPrimary(st: LocalStore) {
    ACHIEVEMENTS_KEY in st && !st[ACHIEVEMENTS_KEY].Empty?
  }

  /**
   * `backupAchievements()` at `Date.now() == now`: null when there is nothing
   * to copy or the write throws; otherwise the primary text is copied, as is,
   * under the new backup key, which is returned.
   */
  function BackupAchievements(st: LocalStore, now: nat, writeOk: bool): (r: BackedUp)
    ensures !HasPrimary(st) || !writeOk ==> r == BackedUp(None, st)
    ensures HasPrimary(st) && writeOk ==>
      && r.key == Some(BackupKey(now))
      && BackupKey(now) in r.store && r.store[BackupKey(now)] == st[ACHIEVEMENTS_KEY]
      && ACHIEVEMENTS_KEY in r.store && r.store[ACHIEVEMENTS_KEY] == st[ACHIEVEMENTS_KEY]
      && forall k | k != BackupKey(now) :: (k in r.store <==> k in st) && (k in st ==> r.store[k] == st[k])
  {
    if HasPrimary(st) && writeOk then
      var key := BackupKey(now);
      BackedUp(Some(key), st[key := st[ACHIEVEMENTS_KEY]])
    else BackedUp(None, st)
  }

  // ----------------------------------------------------------- restore

  datatype RestoreError = BackupNotFound | WriteFailed | ParseFailed

  datatype Restored = Restored(store: LocalStore, result: Result<seq<Achievement>, RestoreError>)

  /**
   * `restoreFromBackup(key)`: "backup not found" for an absent or empty key;
   * otherwise the backup text overwrites the primary key and is parsed, so
   * a backup that does not parse still overwrites the primary before failing.
   */
  function RestoreFromBackup(st: LocalStore, key: string, writeOk: bool): (r: Restored)
    ensures key !in st || st[key].Empty? ==> r == Restored(st, Failure(BackupNotFound))
    ensures key in st && !st[key].Empty? && !writeOk ==> r == Restored(st, Failure(WriteFailed))
    ensures key in st && !st[key].Empty? && writeOk ==>
      && ACHIEVEMENTS_KEY in r.store && r.store[ACHIEVEMENTS_KEY] == st[key]
      && (forall k | k != ACHIEVEMENTS_KEY :: (k in r.store <==> k in st) && (k in st ==> r.store[k] == st[k]))
      && (st[key].Saved? ==> r.result == Success(st[key].items) && LoadAchievements(r.store) == Some(st[key].items))
      && (st[key].Corrupt? ==> r.result == Failure(ParseFailed))
  {
    if key !in st || st[key].Empty? then Restored(st, Failure(BackupNotFound))
    else if !writeOk then Restored(st, Failure(WriteFailed))
    else
      var st' := st[ACHIEVEMENTS_KEY := st[key]];
      match st[key]
      case Saved(items) => Restored(st', Success(items))
      case _ => Restored(st', Failure(ParseFailed))
  }

  /** A backup taken and then restored gives back the list that was saved. */
  lemma BackupThenRestore(st: LocalStore, now: nat)
    requires LoadAchievements(st).Some?
    ensures var b := BackupAchievements(st, now, true);
      RestoreFromBackup(b.store, b.key.value, true).result == Success(LoadAchievements(st).value)
  {
  }

  // ----------------------------------------------------------- listing

  /** `key.split('-').pop()`: the text after the last '-'. */
  function LastSegment(s: string): (r: string)
    ensures '-' !in r
    ensures |r| <= |s| && r == s[|s| - |r|..]
  {
    if s == [] || s[|s| - 1] == '-' then []
    else LastSegment(s[..|s| - 1]) + [s[|s| - 1]]
  }

  lemma {:induction false} LastSegmentAfterDash(p: string, d: string)
    requires p != [] && p[|p| - 1] == '-'
    requires '-' !in d
    ensures LastSegment(p + d) == d
  {
    if d != [] {
      assert (p + d)[..|p + d| - 1] == p + d[..|d| - 1];
      assert d[|d| - 1] in d;
      LastSegmentAfterDash(p, d[..|d| - 1]);
      assert d == d[..|d| - 1] + [d[|d| - 1]];
    } else {
      assert p + d == p;
    }
  }

  /** `parseInt(key.split('-').pop())`; None is NaN. */
  function ParseTimestamp(key: string): (r: Option<nat>)
    ensures r.None? <==> LastSegment(key) == [] || !IsDigit(LastSegment(key)[0])
  {
    ParseLeadingInt(LastSegment(key))
  }

  /** The timestamp read back from a backup key is the one it was written with. */
  lemma TimestampOfBackupKey(now: nat)
    ensures ParseTimestamp(BackupKey(now)) == Some(now)
  {
    var d := NatToString(now);
    assert forall i :: 0 <= i < |d| ==> d[i] != '-';
    LastSegmentAfterDash(BACKUP_PREFIX, d);
    ParseLeadingIntOfNatToString(now);
  }

  datatype BackupEntry = BackupEntry(key: string, timestamp: Option<nat>, count: nat)

  /** A key `getAllBackups` reports: it has the backup prefix and its text parses to a list. */
  predicate IsListed(st: LocalStore, k: string) {
    StartsWith(k, BACKUP_PREFIX) && k in st && st[k].Saved?
  }

  function Entry(st: LocalStore, k: string): BackupEntry
    requires IsListed(st, k)
  {
    BackupEntry(k, ParseTimestamp(k), |st[k].items|)
  }

  /** The listing order; a NaN timestamp sorts after every number. */
  function SortKey(e: BackupEntry): int {
    if e.timestamp.Some? then e.timestamp.value else -1
  }

  /** The listed keys of `keys`, in `localStorage.key(i)` order. */
  function Candidates(st: LocalStore, keys: seq<string>): (r: seq<BackupEntry>)
    ensures forall e | e in r :: IsListed(st, e.key) && e == Entry(st, e.key) && e.key in keys
    ensures forall k | k in keys && IsListed(st, k) :: Entry(st, k) in r
  {
    if keys == [] then []
    else
      assert forall i :: 1 <= i < |keys| ==> keys[i] == keys[1..][i - 1];
      (if IsListed(st, keys[0]) then [Entry(st, keys[0])] else []) + Candidates(st, keys[1..])
  }

  /**
   * Enumeration distributes over the key order, so together with the
   * one-key cases the candidates follow `localStorage.key(i)` order.
   */
  lemma {:induction false} CandidatesConcat(st: LocalStore, a: seq<string>, b: seq<string>)
    ensures Candidates(st, a + b) == Candidates(st, a) + Candidates(st, b)
  {
    if a == [] {
      assert a + b == b;
    } else {
      assert [a[0]] + (a[1..] + b) == a + b;
      assert [a[0]] + a[1..] == a;
      CandidatesCons(st, a[0], a[1..] + b);
      CandidatesCons(st, a[0], a[1..]);
      CandidatesConcat(st, a[1..], b);
    }
  }

  lemma CandidatesCons(st: LocalStore, k: string, rest: seq<string>)
    ensures Candidates(st, [k] + rest) == (if IsListed(st, k) then [Entry(st, k)] else []) + Candidates(st, rest)
  {
    assert ([k] + rest)[1..] == rest;
  }

  /** A single enumerated key is listed exactly when it names a readable backup. */
  lemma CandidatesSingle(st: LocalStore, k: string)
    ensures Candidates(st, [k]) == if IsListed(st, k) then [Entry(st, k)] else []
  {
    assert [k][1..] == [];
  }

  /**
   * `getAllBackups()`, where `keys` is the order in which `localStorage.key(i)`
   * enumerates the store: every listed key once, newest first.
   */
  function ListBackups(st: LocalStore, keys: seq<string>): (r: seq<BackupEntry>)
    ensures SortedDesc(r, SortKey)
    ensures forall e | e in r :: IsListed(st, e.key) && e == Entry(st, e.key) && e.key in keys
    ensures forall k | k in keys && IsListed(st, k) :: Entry(st, k) in r
    ensures multiset(r) == multiset(Candidates(st, keys))
  {
    var c := Candidates(st, keys);
    var r := SortDesc(c, SortKey);
    assert forall e | e in r :: e in multiset(c);
    assert forall e | e in c :: e in multiset(r);
    r
  }

  /** Backups with equal timestamps keep their enumeration order, which decides which of them cleanup removes. */
  lemma ListBackupsTieOrder(st: LocalStore, keys: seq<string>, ts: int)
    ensures WithKey(ListBackups(st, keys), SortKey, ts) == WithKey(Candidates(st, keys), SortKey, ts)
  {
    SortDescIsStable(Candidates(st, keys), SortKey, ts);
  }

  predicate DistinctKeys(bs: seq<BackupEntry>) {
    forall i, j :: 0 <= i < j < |bs| ==> bs[i].key != bs[j].key
  }

  lemma {:induction false} CandidatesDistinct(st: LocalStore, keys: seq<string>)
    requires Distinct(keys)
    ensures DistinctKeys(Candidates(st, keys))
  {
    if keys != [] {
      DistinctTail(keys);
      CandidatesDistinct(st, keys[1..]);
      var rest := Candidates(st, keys[1..]);
      if IsListed(st, keys[0]) {
        DistinctKeysCons(Entry(st, keys[0]), rest);
      } else {
        assert Candidates(st, keys) == rest;
      }
    }
  }

  lemma DistinctKeysCons(e: BackupEntry, rest: seq<BackupEntry>)
    requires DistinctKeys(rest)
    requires forall x | x in rest :: x.key != e.key
    ensures DistinctKeys([e] + rest)
  {
    var r := [e] + rest;
    forall i, j | 0 <= i < j < |r| ensures r[i].key != r[j].key {
      assert r[j] == rest[j - 1];
      if i > 0 {
        assert r[i] == rest[i - 1];
      }
    }
  }

  /** When `keys` enumerates each key once, no backup is listed twice. */
  lemma ListBackupsDistinct(st: LocalStore, keys: seq<string>)
    requires Distinct(keys)
    ensures DistinctKeys(ListBackups(st, keys))
  {
    var c := Candidates(st, keys);
    var r := ListBackups(st, keys);
    CandidatesDistinct(st, keys);
    assert Distinct(c);
    PermutationKeepsDistinct(c, r);
    forall i, j | 0 <= i < j < |r| ensures r[i].key != r[j].key {
      assert r[i] in r && r[j] in r;
      assert r[i] == Entry(st, r[i].key) && r[j] == Entry(st, r[j].key);
    }
  }

  // ----------------------------------------------------------- cleanup

  datatype Cleaned = Cleaned(store: LocalStore, removed: nat)

  function KeysOf(bs: seq<BackupEntry>): set<string> {
    set i | 0 <= i < |bs| :: bs[i].key
  }

  /** `cleanupOldBackups()`: every listed backup after the first five is removed. */
  function CleanupOldBackups(st: LocalStore, keys: seq<string>): (r: Cleaned)
    ensures r.store.Keys <= st.Keys
    ensures forall k | k in r.store :: r.store[k] == st[k]
    ensures forall k | k in st && !IsListed(st, k) :: k in r.store
    ensures |ListBackups(st, keys)| <= KEEP ==> r == Cleaned(st, 0)
    ensures |ListBackups(st, keys)| > KEEP ==> r.removed == |ListBackups(st, keys)| - KEEP
  {
    var backups := ListBackups(st, keys);
    if |backups| > KEEP then
      var toRemove := backups[KEEP..];
      Cleaned(st - KeysOf(toRemove), |toRemove|)
    else Cleaned(st, 0)
  }

  /**
   * With `keys` enumerating the store once each, pruning keeps exactly the
   * five newest listed backups and removes the others.
   */
  lemma CleanupKeepsNewest(st: LocalStore, keys: seq<string>)
    requires Distinct(keys)
    ensures var b := ListBackups(st, keys);
      forall i | 0 <= i < |b| :: (b[i].key in CleanupOldBackups(st, keys).store <==> i < KEEP)
  {
    var b := ListBackups(st, keys);
    var r := CleanupOldBackups(st, keys);
    ListBackupsDistinct(st, keys);
    forall i | 0 <= i < |b| ensures b[i].key in st {
      assert b[i] in b;
    }
    if |b| > KEEP {
      assert r.store == st - KeysOf(b[KEEP..]);
      SuffixKeys(b, KEEP);
    }
  }

  /** With distinct keys, a backup's key belongs to a suffix exactly when the backup lies in it. */
  lemma SuffixKeys(b: seq<BackupEntry>, n: nat)
    requires DistinctKeys(b) && n <= |b|
    ensures forall i | 0 <= i < |b| :: (b[i].key in KeysOf(b[n..]) <==> n <= i)
  {
    forall i | 0 <= i < n ensures b[i].key !in KeysOf(b[n..]) {
      forall j | 0 <= j < |b[n..]| ensures b[n..][j].key != b[i].key {
        assert b[n..][j] == b[n + j];
      }
    }
    forall i | n <= i < |b| ensures b[i].key in KeysOf(b[n..]) {
      assert b[n..][i - n] == b[i];
    }
  }

  /** Every backup pruning keeps is at least as new as every backup it removes. */
  lemma CleanupRemovesOldest(st: LocalStore, keys: seq<string>)
    ensures var b := ListBackups(st, keys);
      forall i, j | 0 <= i < KEEP <= j < |b| :: SortKey(b[i]) >= SortKey(b[j])
  {
  }
}

=== FILE: card.dfy ===
/** The edit-state logic and the id label of one `Card`. */
module CardView {
  import opened Wrappers
  import opened Entities
  import opened Text
  import opened Tags
  import opened Achievements

  /** `editData`: the fields the edit form works on. */
  datatype EditBuffer = EditBuffer(title: string, description: Option<string>, tag: string)

  datatype CardState = CardState(isEditing: bool, showDetails: bool, editData: EditBuffer)

  /** The buffer holding the record's current title, description and tag. */
  function BufferOf(a: Achievement): (r: EditBuffer)
    ensures r.title == a.title && r.description == a.description && r.tag == a.tag
  {
    EditBuffer(a.title, a.description, a.tag)
  }

  function InitialCardState(a: Achievement): (r: CardState)
    ensures !r.isEditing && !r.showDetails && r.editData == BufferOf(a)
  {
    CardState(false, false, BufferOf(a))
  }

  datatype EditField = EditTitle | EditDescription | EditTag

  /** `setEditData({ ...editData, [field]: value })` from the edit inputs and tag buttons. */
  function Edit(st: CardState, f: EditField, value: string): (r: CardState)
    ensures r.isEditing == st.isEditing && r.showDetails == st.showDetails
    ensures f == EditTitle ==> r.editData == st.editData.(title := value)
    ensures f == EditDescription ==> r.editData == st.editData.(description := Some(value))
    ensures f == EditTag ==> r.editData == st.editData.(tag := value)
  {
    match f
    case EditTitle => st.(editData := st.editData.(title := value))
    case EditDescription => st.(editData := st.editData.(description := Some(value)))
    case EditTag => st.(editData := st.editData.(tag := value))
  }

  /** The `onUpdate(id, editData)` call a save makes. */
  datatype UpdateCall = UpdateCall(id: int, patch: Patch)

  datatype SaveOutcome = SaveOutcome(call: Option<UpdateCall>, state: CardState)

  /** The patch carrying exactly the three edited fields. */
  function PatchOf(b: EditBuffer): (p: Patch)
    ensures p.title == Some(b.title) && p.description == Some(b.description) && p.tag == Some(b.tag)
    ensures p.imageUrl == None
  {
    Patch(Some(b.title), Some(b.description), None, Some(b.tag))
  }

  /** `handleSave()`: the buffer goes to `onUpdate` when there is one, and editing ends. */
  function HandleSave(a: Achievement, st: CardState, hasOnUpdate: bool): (r: SaveOutcome)
    ensures r.call.Some? <==> hasOnUpdate
    ensures r.call.Some? ==> r.call.value == UpdateCall(a.id, PatchOf(st.editData))
    ensures r.state == st.(isEditing := false)
  {
    SaveOutcome(if hasOnUpdate then Some(UpdateCall(a.id, PatchOf(st.editData))) else None, st.(isEditing := false))
  }

  /** `handleCancel()`: the buffer is reset to the record and editing ends. */
  function HandleCancel(a: Achievement, st: CardState): (r: CardState)
    ensures r.editData == BufferOf(a) && !r.isEditing && r.showDetails == st.showDetails
  {
    CardState(false, st.showDetails, BufferOf(a))
  }

  /**
   * A save applied to the collection changes only title, description and
   * tag of the edited record; id, date, creation time and image stay.
   */
  lemma SaveTouchesOnlyEditedFields(items: seq<Achievement>, a: Achievement, st: CardState, now: int)
    ensures var c := HandleSave(a, st, true).call.value;
      var r := Update(items, c.id, c.patch, now).items;
      && |r| == |items|
      && (forall i | 0 <= i < |r| ::
            r[i].id == items[i].id && r[i].date == items[i].date
            && r[i].createdAt == items[i].createdAt && r[i].imageUrl == items[i].imageUrl)
      && (forall i | 0 <= i < |r| && items[i].id == a.id ::
            BufferOf(r[i]) == st.editData && r[i].updatedAt == Some(now))
  {
  }

  /** Cancelling after any edits leaves a buffer that saves back the record's own fields. */
  lemma CancelThenSaveIsNeutral(a: Achievement, st: CardState, items: seq<Achievement>, now: int)
    requires UniqueIds(items)
    ensures var c := HandleSave(a, HandleCancel(a, st), true).call.value;
      forall i | 0 <= i < |items| && items[i] == a ::
        Update(items, c.id, c.patch, now).items[i] == a.(updatedAt := Some(now))
  {
  }

  /** `#${id.toString().padStart(3, '0')}` without the `#`. */
  function IdLabel(id: int): (r: string)
    ensures |r| == if |IntToString(id)| >= 3 then |IntToString(id)| else 3
    ensures r[|r| - |IntToString(id)|..] == IntToString(id)
    ensures forall i :: 0 <= i < |r| - |IntToString(id)| ==> r[i] == '0'
  {
    PadStart(IntToString(id), 3, '0')
  }

  /** The tag buttons of the edit form, in order. */
  const EDIT_TAG_OPTIONS: seq<string> := ["学习", "健身", "工作", "生活", "创作", "社交"]

  /** The edit form offers exactly the catalogue's tags, in catalogue order. */
  lemma EditOptionsAreCatalogue()
    ensures EDIT_TAG_OPTIONS == GetTagNames()
  {
    TagNamesInOrder();
  }
}

=== FILE: entities.dfy ===
/**
 * The achievement record of the browser store (the objects held by
 * `useAchievements`), with the optional properties made explicit.
 * Timestamps are integer milliseconds since the epoch; `date` keeps the
 * `YYYY-MM-DD` text the form writes, since it is sliced from an ISO string.
 */
module Entities {
  import opened Wrappers

  datatype Achievement = Achievement(
    id: int,
    title: string,
    description: Option<string>,
    imageUrl: Option<string>,
    tag: string,
    date: Option<string>,
    createdAt: Option<int>,
    updatedAt: Option<int>
  )

  /**
   * A reading of the wall clock: `Date.now()` in milliseconds and the
   * `toISOString()` text of the same moment.
   */
  datatype Clock = Clock(ms: int, iso: string)

  /** The ids of a collection, in collection order. */
  function Ids(s: seq<Achievement>): (r: seq<int>)
    ensures |r| == |s|
    ensures forall i :: 0 <= i < |s| ==> r[i] == s[i].id
  {
    if s == [] then [] else [s[0].id] + Ids(s[1..])
  }

  /** No two records of the collection share an id. */
  predicate UniqueIds(s: seq<Achievement>) {
    forall i, j :: 0 <= i < j < |s| ==> s[i].id != s[j].id
  }

  /** Some record of the collection carries `id`. */
  predicate HasId(s: seq<Achievement>, id: int) {
    exists i :: 0 <= i < |s| && s[i].id == id
  }
}

=== FILE: form.dfy ===
/** The pure parts of `AddAchievementForm`: field updates, the submit guards and the draft record. */
module Form {
  import opened Wrappers
  import opened Entities
  import opened Text
  import opened Tags
  import opened Achievements

  datatype FormData = FormData(title: string, description: string, imageUrl: string, tag: string)

  /** The form's initial and post-submit content. */
  const EMPTY_FORM: FormData := FormData("", "", "", DEFAULT_TAG)

  /** The picture a draft gets when no image URL was entered. */
  const DEFAULT_IMAGE_URL: string := "https://images.unsplash.com/photo-1551288049-bebda4e38f71?w=400&h=250&fit=crop&auto=format"

  /** The `name` attributes of the text inputs. */
  datatype Field = Title | Description | ImageUrl

  /** `handleInputChange`: `{ ...formData, [name]: value }`. */
  function HandleInputChange(f: FormData, name: Field, value: string): (r: FormData)
    ensures name == Title ==> r == f.(title := value)
    ensures name == Description ==> r == f.(description := value)
    ensures name == ImageUrl ==> r == f.(imageUrl := value)
  {
    match name
    case Title => f.(title := value)
    case Description => f.(description := value)
    case ImageUrl => f.(imageUrl := value)
  }

  /** A tag button: the tag changes only while the form is neither uploading nor disabled. */
  function SelectTag(f: FormData, tag: string, isUploading: bool, disabled: bool): (r: FormData)
    ensures isUploading || disabled ==> r == f
    ensures !isUploading && !disabled ==> r == f.(tag := tag)
  {
    if !isUploading && !disabled then f.(tag := tag) else f
  }

  datatype Rejection = StillLoading | BlankTitle

  datatype Submitted = Rejected(reason: Rejection) | Accepted(draft: Achievement, form: FormData)

  /**
   * `handleSubmit` at `clock`: refused while disabled, then refused for a
   * title that trims to nothing; otherwise the draft handed to
   * `onAddAchievement` and the reset form.
   */
  function HandleSubmit(f: FormData, disabled: bool, clock: Clock): (r: Submitted)
    ensures disabled ==> r == Rejected(StillLoading)
    ensures !disabled && AllSpace(f.title, IsJsSpace) ==> r == Rejected(BlankTitle)
    ensures r.Accepted? ==>
      && !disabled && !AllSpace(f.title, IsJsSpace)
      && r.form == EMPTY_FORM
      && r.draft.id == clock.ms
      && r.draft.title == f.title && r.draft.description == Some(f.description) && r.draft.tag == f.tag
      && r.draft.imageUrl == Some(if f.imageUrl == "" then DEFAULT_IMAGE_URL else f.imageUrl)
      && r.draft.date == Some(BeforeFirst(clock.iso, 'T'))
      && r.draft.createdAt == None && r.draft.updatedAt == None
  {
    StripEmptyIffAllSpace(f.title, IsJsSpace);
    if disabled then Rejected(StillLoading)
    else if Strip(f.title, IsJsSpace) == [] then Rejected(BlankTitle)
    else
      var draft := Achievement(
        clock.ms, f.title, Some(f.description),
        Some(if f.imageUrl == "" then DEFAULT_IMAGE_URL else f.imageUrl),
        f.tag, Some(BeforeFirst(clock.iso, 'T')), None, None);
      Accepted(draft, EMPTY_FORM)
  }

  /** For an ISO-8601 timestamp `YYYY-MM-DDTHH:mm:ss.sssZ` the draft date is its first ten characters. */
  lemma DateIsIsoDay(iso: string)
    requires |iso| > 10 && iso[10] == 'T'
    requires forall i :: 0 <= i < 10 ==> iso[i] != 'T'
    ensures BeforeFirst(iso, 'T') == iso[..10]
  {
    BeforeFirstAt(iso, 'T', 10);
  }

  /** An accepted draft becomes a record with the collection's next id, whatever the draft's own id. */
  lemma SubmittedDraftGetsFreshId(f: FormData, clock: Clock, items: seq<Achievement>, now: int)
    requires HandleSubmit(f, false, clock).Accepted?
    requires UniqueIds(items)
    ensures var d := HandleSubmit(f, false, clock).draft;
      var added := Add(items, d, now);
      && added.items[0].title == f.title && added.items[0].createdAt == Some(now)
      && !HasId(items, added.newId)
      && UniqueIds(added.items)
  {
    AddKeepsIdsUnique(items, HandleSubmit(f, false, clock).draft, now);
  }
}

=== FILE: panel.dfy ===
/**
 * The data `StatisticsPanel` derives from the statistics: the tag
 * distribution sorted by count, the fixed seven-day series and its sums.
 */
module Panel {
  import opened Wrappers
  import opened Entities
  import opened Tags
  import opened Sorting
  import opened Achievements

  datatype TagShare = TagShare(tag: string, count: nat, percentage: int, color: string, emoji: string)

  /**
   * `Math.round(count / total * 100)`, or 0 for an empty collection, on
   * exact rationals: round half up of `100 * count / total`.
   */
  function Percentage(count: nat, total: nat): (r: int)
    ensures total == 0 ==> r == 0
    ensures count <= total ==> 0 <= r <= 100
    ensures total > 0 ==> 2 * total * r <= 200 * count + total < 2 * total * (r + 1)
  {
    if total > 0 then
      var q := (200 * count + total) / (2 * total);
      DivBounds(200 * count + total, 2 * total);
      if count <= total then RoundedWithinHundred(count, total, q); q else q
    else 0
  }

  lemma DivBounds(a: int, d: int)
    requires d > 0
    ensures d * (a / d) <= a < d * (a / d + 1)
  {
  }

  lemma CancelLe(t: int, a: int, b: int)
    requires t > 0 && a * t <= b * t
    ensures a <= b
  {
  }

  /** A share rounded from a count within the total lies between 0 and 100. */
  lemma RoundedWithinHundred(count: nat, total: nat, q: int)
    requires 0 < total && count <= total
    requires 2 * total * q <= 200 * count + total < 2 * total * (q + 1)
    ensures 0 <= q <= 100
  {
    assert (2 * q) * total == 2 * total * q;
    assert 200 * count <= 200 * total;
    CancelLe(total, 2 * q, 201);
    assert (-1) * total < (2 * q + 1) * total;
    CancelLe(total, -1, 2 * q + 1);
  }

  /**
   * `tags.find(t => t.name === tag)?.color || '#3498db'`: the colour of the
   * first entry with the name, with the default for an unknown name or an
   * empty colour.
   */
  function ShareColor(tags: seq<TagConfig>, tag: string): (r: string)
    ensures r != ""
    ensures forall j :: 0 <= j < |tags| && tags[j].name == tag && (forall i :: 0 <= i < j ==> tags[i].name != tag) ==>
      r == (if tags[j].color != "" then tags[j].color else "#3498db")
    ensures (forall j :: 0 <= j < |tags| ==> tags[j].name != tag) ==> r == "#3498db"
  {
    var k := FindByName(tags, tag);
    if k >= 0 && tags[k].color != "" then tags[k].color else "#3498db"
  }

  /** `tags.find(t => t.name === tag)?.emoji || '📌'`, read as the colour is. */
  function ShareEmoji(tags: seq<TagConfig>, tag: string): (r: string)
    ensures r != ""
    ensures forall j :: 0 <= j < |tags| && tags[j].name == tag && (forall i :: 0 <= i < j ==> tags[i].name != tag) ==>
      r == (if tags[j].emoji != "" then tags[j].emoji else "📌")
    ensures (forall j :: 0 <= j < |tags| ==> tags[j].name != tag) ==> r == "📌"
  {
    var k := FindByName(tags, tag);
    if k >= 0 && tags[k].emoji != "" then tags[k].emoji else "📌"
  }

  /**
   * Over the catalogue the panel shows the same colour as `getTagColor`,
   * and the same emoji as `getTagEmoji` for a known tag; an unknown tag gets
   * the pin here but the book there.
   */
  lemma PanelMatchesCatalogue(name: string)
    ensures ShareColor(TAGS, name) == GetTagColor(name)
    ensures IsKnown(name) ==> ShareEmoji(TAGS, name) == GetTagEmoji(name)
    ensures !IsKnown(name) ==> ShareEmoji(TAGS, name) == "📌" != GetTagEmoji(name)
  {
    CatalogueKeysDistinct();
  }

  /** `Object.entries(byTag).map(...)`, in key order. */
  function Shares(byTag: seq<TagCount>, total: nat, tags: seq<TagConfig>): (r: seq<TagShare>)
    ensures |r| == |byTag|
    ensures forall i :: 0 <= i < |r| ==>
      (r[i].tag == byTag[i].tag && r[i].count == byTag[i].count && r[i].percentage == Percentage(byTag[i].count, total))
    ensures forall i :: 0 <= i < |r| ==>
      r[i].color == ShareColor(tags, byTag[i].tag) && r[i].emoji == ShareEmoji(tags, byTag[i].tag)
  {
    if byTag == [] then []
    else
      var e := byTag[0];
      [TagShare(e.tag, e.count, Percentage(e.count, total), ShareColor(tags, e.tag), ShareEmoji(tags, e.tag))]
      + Shares(byTag[1..], total, tags)
  }

  function ShareCount(x: TagShare): int {
    x.count
  }

  /** `tagDistribution`: the shares sorted by count, largest first (a stable sort). */
  function TagDistribution(stats: Statistics, tags: seq<TagConfig>): (r: seq<TagShare>)
    ensures |r| == |stats.byTag|
    ensures SortedDesc(r, ShareCount)
    ensures multiset(r) == multiset(Shares(stats.byTag, stats.total, tags))
  {
    SortDesc(Shares(stats.byTag, stats.total, tags), ShareCount)
  }

  /** Shares with equal counts keep their key order, which decides the most used tag shown. */
  lemma DistributionTieOrder(stats: Statistics, tags: seq<TagConfig>, count: int)
    ensures WithKey(TagDistribution(stats, tags), ShareCount, count)
         == WithKey(Shares(stats.byTag, stats.total, tags), ShareCount, count)
  {
    SortDescIsStable(Shares(stats.byTag, stats.total, tags), ShareCount, count);
  }

  lemma {:induction false} EntryBelowSum(m: seq<TagCount>, e: TagCount)
    requires e in m
    ensures e.count <= SumCounts(m)
  {
    if m[0] != e {
      EntryBelowSum(m[1..], e);
    }
  }

  /** The distribution has one share per `byTag` entry, with that entry's tag and count. */
  lemma DistributionMatchesByTag(stats: Statistics, tags: seq<TagConfig>)
    ensures var r := TagDistribution(stats, tags);
      && (forall i | 0 <= i < |stats.byTag| ::
            exists j :: 0 <= j < |r| && r[j].tag == stats.byTag[i].tag && r[j].count == stats.byTag[i].count)
      && (forall j | 0 <= j < |r| :: TagCount(r[j].tag, r[j].count) in stats.byTag)
  {
    var r := TagDistribution(stats, tags);
    DistributionCoversByTag(stats, tags);
    DistributionDrawsOnByTag(stats, tags);
  }

  lemma DistributionCoversByTag(stats: Statistics, tags: seq<TagConfig>)
    ensures var r := TagDistribution(stats, tags);
      forall i | 0 <= i < |stats.byTag| ::
        exists j :: 0 <= j < |r| && r[j].tag == stats.byTag[i].tag && r[j].count == stats.byTag[i].count
  {
    var sh := Shares(stats.byTag, stats.total, tags);
    var r := TagDistribution(stats, tags);
    forall i | 0 <= i < |stats.byTag|
      ensures exists j :: 0 <= j < |r| && r[j].tag == stats.byTag[i].tag && r[j].count == stats.byTag[i].count
    {
      assert sh[i] in multiset(r);
      var j :| 0 <= j < |r| && r[j] == sh[i];
    }
  }

  lemma DistributionDrawsOnByTag(stats: Statistics, tags: seq<TagConfig>)
    ensures var r := TagDistribution(stats, tags);
      forall j | 0 <= j < |r| :: TagCount(r[j].tag, r[j].count) in stats.byTag
  {
    var sh := Shares(stats.byTag, stats.total, tags);
    var r := TagDistribution(stats, tags);
    forall j | 0 <= j < |r| ensures TagCount(r[j].tag, r[j].count) in stats.byTag {
      assert r[j] in multiset(sh);
      var i :| 0 <= i < |sh| && sh[i] == r[j];
      assert stats.byTag[i] == TagCount(r[j].tag, r[j].count);
    }
  }

  /** When the counts add up to the total, as `getStatistics` guarantees, every percentage lies in 0..100. */
  lemma DistributionPercentagesBounded(stats: Statistics, tags: seq<TagConfig>)
    requires SumCounts(stats.byTag) == stats.total
    ensures forall x | x in TagDistribution(stats, tags) :: 0 <= x.percentage <= 100
  {
    var sh := Shares(stats.byTag, stats.total, tags);
    var r := TagDistribution(stats, tags);
    forall i | 0 <= i < |sh| ensures 0 <= sh[i].percentage <= 100 {
      EntryBelowSum(stats.byTag, stats.byTag[i]);
    }
    forall x | x in r ensures 0 <= x.percentage <= 100 {
      assert x in multiset(r);
      assert x in sh;
    }
  }

  // ------------------------------------------------------------- days

  const DAY_LABELS: seq<string> := ["今天", "昨天", "2天前", "3天前", "4天前", "5天前", "6天前"]

  datatype DayCount = DayCount(dayLabel: string, count: nat)

  /** `last7DaysData`: one entry per label, `last7Days[i] || 0`; older buckets are not shown. */
  function Last7DaysData(last7: map<int, nat>): (r: seq<DayCount>)
    ensures |r| == 7
    ensures forall i :: 0 <= i < 7 ==>
      (r[i].dayLabel == DAY_LABELS[i] && r[i].count == (if i in last7 then last7[i] else 0))
  {
    seq(7, i requires 0 <= i < 7 => DayCount(DAY_LABELS[i], if i in last7 then last7[i] else 0))
  }

  /** `reduce((sum, day) => sum + day.count, 0)`. */
  function SumDays(d: seq<DayCount>): nat {
    if d == [] then 0 else SumDays(d[..|d| - 1]) + d[|d| - 1].count
  }

  /** The seven-day overview figure: zero exactly when no day has a record. */
  function WeekTotal(d: seq<DayCount>): (r: nat)
    ensures r == 0 <==> forall i :: 0 <= i < |d| ==> d[i].count == 0
  {
    SumDaysZeroIff(d);
    SumDays(d)
  }

  /** The "recent activity" figure: the first three days, never more than the overview figure. */
  function RecentTotal(d: seq<DayCount>): (r: nat)
    requires |d| >= 3
    ensures r <= WeekTotal(d)
  {
    SumDaysPrefixBelow(d, 3);
    SumDays(d[..3])
  }

  lemma {:induction false} SumDaysZeroIff(d: seq<DayCount>)
    ensures SumDays(d) == 0 <==> forall i :: 0 <= i < |d| ==> d[i].count == 0
  {
    if d != [] {
      SumDaysZeroIff(d[..|d| - 1]);
      assert forall i :: 0 <= i < |d| - 1 ==> d[..|d| - 1][i] == d[i];
    }
  }

  lemma {:induction false} SumDaysPrefixBelow(d: seq<DayCount>, k: nat)
    requires k <= |d|
    ensures SumDays(d[..k]) <= SumDays(d)
    decreases |d|
  {
    if k < |d| {
      assert d[..|d| - 1][..k] == d[..k];
      SumDaysPrefixBelow(d[..|d| - 1], k);
    } else {
      assert d[..k] == d;
    }
  }

  lemma {:induction false} DayPrefixSum(s: seq<Achievement>, now: int, parseDate: string -> Option<int>, k: nat)
    requires k <= 7
    ensures SumDays(Last7DaysData(Last7Days(s, now, parseDate))[..k]) == CountWindow(s, 0, k, now, parseDate)
  {
    var d := Last7DaysData(Last7Days(s, now, parseDate));
    if k == 0 {
      ZeroWindow(s, now, parseDate);
    } else {
      DayPrefixSum(s, now, parseDate, k - 1);
      assert d[..k][..k - 1] == d[..k - 1];
      CountWindowStep(s, 0, k - 1, now, parseDate);
    }
  }

  lemma {:induction false} ZeroWindow(s: seq<Achievement>, now: int, parseDate: string -> Option<int>)
    ensures CountWindow(s, 0, 0, now, parseDate) == 0
  {
    if s != [] {
      ZeroWindow(s[1..], now, parseDate);
    }
  }

  /**
   * The overview counts the records 0..6 days old and the recent figure
   * those 0..2 days old; bucket 7 and future dates count in neither.
   */
  lemma PanelTotals(s: seq<Achievement>, now: int, parseDate: string -> Option<int>)
    ensures var d := Last7DaysData(GetStatistics(s, now, parseDate).last7Days);
      && WeekTotal(d) == CountWindow(s, 0, 7, now, parseDate)
      && RecentTotal(d) == CountWindow(s, 0, 3, now, parseDate)
  {
    var d := Last7DaysData(GetStatistics(s, now, parseDate).last7Days);
    DayPrefixSum(s, now, parseDate, 7);
    DayPrefixSum(s, now, parseDate, 3);
    assert d[..7] == d;
  }
}

=== FILE: schemas.dfy ===
/**
 * The request-body validation of the backend: `AchievementCreate` and
 * `AchievementUpdate`. Each field is checked against its own bounds in
 * declaration order; a field's custom validator runs only once its bounds
 * hold, and sees only the earlier fields that validated. Every failing
 * field contributes one violation, and the request fails if any does.
 */
module Schemas {
  import opened Wrappers
  import opened Text

  const TITLE_MAX := 100
  const DESCRIPTION_MAX := 500
  const TARGET_MAX := 10000
  const CATEGORY_MAX := 50

  datatype FieldName = TitleField | DescriptionField | TargetField | CurrentField | CategoryField

  datatype Reason =
    | Required        // a required field is absent
    | TooShort        // below `min_length`
    | TooLong         // above `max_length`
    | NotPositive     // fails `gt=0`
    | AboveMaximum    // fails `le=10000`
    | Negative        // fails `ge=0`
    | ExceedsTarget   // the cross-field check current <= target
    | BlankTitle      // the title validator's whitespace check

  datatype Violation = Violation(field: FieldName, reason: Reason)

  /** A create body as received; `None` is an absent (or, for description, null) field. */
  datatype CreatePayload = CreatePayload(
    title: Option<string>,
    description: Option<string>,
    target: Option<int>,
    current: Option<int>,
    category: Option<string>)

  /** The validated create body, ready to be stored. */
  datatype NewAchievement = NewAchievement(
    title: string,
    description: Option<string>,
    target: int,
    current: int,
    category: string)

  /** `constr(min_length=lo, max_length=hi)`: the minimum is checked first. */
  function LengthCheck(f: FieldName, s: string, lo: nat, hi: nat): (r: seq<Violation>)
    ensures r == [] <==> lo <= |s| <= hi
    ensures |s| < lo ==> r == [Violation(f, TooShort)]
    ensures lo <= |s| && hi < |s| ==> r == [Violation(f, TooLong)]
  {
    if |s| < lo then [Violation(f, TooShort)]
    else if |s| > hi then [Violation(f, TooLong)]
    else []
  }

  /** `conint(gt=0, le=10000)`. */
  function TargetCheck(v: int): (r: seq<Violation>)
    ensures r == [] <==> 0 < v <= TARGET_MAX
  {
    if v <= 0 then [Violation(TargetField, NotPositive)]
    else if v > TARGET_MAX then [Violation(TargetField, AboveMaximum)]
    else []
  }

  /** `not v or v.strip() == ''`: empty or only (Python) whitespace. */
  predicate IsBlank(s: string) {
    AllSpace(s, IsPySpace)
  }

  // ---------- AchievementCreate ----------

  function CreateTitleErrors(t: Option<string>): seq<Violation> {
    match t
    case None => [Violation(TitleField, Required)]
    case Some(s) =>
      var bounds := LengthCheck(TitleField, s, 1, TITLE_MAX);
      if bounds != [] then bounds
      else if IsBlank(s) then [Violation(TitleField, BlankTitle)]
      else []
  }

  function CreateDescriptionErrors(d: Option<string>): seq<Violation> {
    match d
    case None => []
    case Some(s) => LengthCheck(DescriptionField, s, 0, DESCRIPTION_MAX)
  }

  function CreateTargetErrors(t: Option<int>): seq<Violation> {
    match t
    case None => [Violation(TargetField, Required)]
    case Some(v) => TargetCheck(v)
  }

  /**
   * An omitted current value takes the default 0 without running any
   * check; a given one must be non-negative, and then must not exceed the
   * target when the target itself validated.
   */
  function CreateCurrentErrors(c: Option<int>, t: Option<int>): seq<Violation> {
    match c
    case None => []
    case Some(v) =>
      if v < 0 then [Violation(CurrentField, Negative)]
      else if t.Some? && CreateTargetErrors(t) == [] && v > t.value then [Violation(CurrentField, ExceedsTarget)]
      else []
  }

  function CreateCategoryErrors(c: Option<string>): seq<Violation> {
    match c
    case None => [Violation(CategoryField, Required)]
    case Some(s) => LengthCheck(CategoryField, s, 1, CATEGORY_MAX)
  }

  function CreateErrors(p: CreatePayload): seq<Violation> {
    CreateTitleErrors(p.title) + CreateDescriptionErrors(p.description) + CreateTargetErrors(p.target)
    + CreateCurrentErrors(p.current, p.target) + CreateCategoryErrors(p.category)
  }

  /** The field bounds of `AchievementCreate`, stated declaratively. */
  predicate ValidCreate(p: CreatePayload) {
    && p.title.Some? && 1 <= |p.title.value| <= TITLE_MAX && !IsBlank(p.title.value)
    && (p.description.Some? ==> |p.description.value| <= DESCRIPTION_MAX)
    && p.target.Some? && 0 < p.target.value <= TARGET_MAX
    && (p.current.Some? ==> 0 <= p.current.value <= p.target.value)
    && p.category.Some? && 1 <= |p.category.value| <= CATEGORY_MAX
  }

  /**
   * Parsing an `AchievementCreate` body: all violations in field order, or
   * the record with the title stripped and the current value defaulted.
   */
  function ValidateCreate(p: CreatePayload): (r: Result<NewAchievement, seq<Violation>>)
    ensures r.Failure? ==> r.error != []
    ensures r.Success? ==>
      && p.title.Some? && r.value.title == Strip(p.title.value, IsPySpace)
      && r.value.description == p.description
      && p.target == Some(r.value.target)
      && r.value.current == p.current.GetOr(0)
      && p.category == Some(r.value.category)
  {
    var errors := CreateErrors(p);
    if errors != [] then Failure(errors)
    else Success(NewAchievement(
      Strip(p.title.value, IsPySpace), p.description, p.target.value,
      p.current.GetOr(0), p.category.value))
  }

  /** A create body is accepted exactly when every field is within its bounds. */
  lemma ValidateCreateIffValid(p: CreatePayload)
    ensures ValidateCreate(p).Success? <==> ValidCreate(p)
  {
  }

  /** An accepted create body yields a stored record that itself satisfies every bound. */
  lemma {:induction false} AcceptedCreateIsWellFormed(p: CreatePayload)
    requires ValidateCreate(p).Success?
    ensures var a := ValidateCreate(p).value;
      && 1 <= |a.title| <= TITLE_MAX && !IsBlank(a.title)
      && 0 < a.target <= TARGET_MAX && 0 <= a.current <= a.target
      && 1 <= |a.category| <= CATEGORY_MAX
  {
    var t := p.title.value;
    StripEmptyIffAllSpace(t, IsPySpace);
    var s := Strip(t, IsPySpace);
    assert s != [];
    assert !IsPySpace(s[0]);
  }

  /** Some violation in `vs` names field `f`. */
  predicate Mentions(vs: seq<Violation>, f: FieldName) {
    exists i :: 0 <= i < |vs| && vs[i].field == f
  }

  lemma MentionsConcat(a: seq<Violation>, b: seq<Violation>, f: FieldName)
    ensures Mentions(a + b, f) <==> Mentions(a, f) || Mentions(b, f)
  {
    if Mentions(a, f) {
      var i :| 0 <= i < |a| && a[i].field == f;
      assert (a + b)[i] == a[i];
    }
    if Mentions(b, f) {
      var i :| 0 <= i < |b| && b[i].field == f;
      assert (a + b)[|a| + i] == b[i];
    }
    if Mentions(a + b, f) {
      var i :| 0 <= i < |a + b| && (a + b)[i].field == f;
      if i < |a| { assert a[i] == (a + b)[i]; } else { assert b[i - |a|] == (a + b)[i]; }
    }
  }

  /** The violations each field check reports name that field. */
  lemma FieldChecksNameTheirField(p: CreatePayload, f: FieldName)
    ensures Mentions(CreateTitleErrors(p.title), f) <==> f == TitleField && CreateTitleErrors(p.title) != []
    ensures Mentions(CreateDescriptionErrors(p.description), f) <==> f == DescriptionField && CreateDescriptionErrors(p.description) != []
    ensures Mentions(CreateTargetErrors(p.target), f) <==> f == TargetField && CreateTargetErrors(p.target) != []
    ensures Mentions(CreateCurrentErrors(p.current, p.target), f) <==> f == CurrentField && CreateCurrentErrors(p.current, p.target) != []
    ensures Mentions(CreateCategoryErrors(p.category), f) <==> f == CategoryField && CreateCategoryErrors(p.category) != []
  {
    var ts, ds, gs, cs, ks := CreateTitleErrors(p.title), CreateDescriptionErrors(p.description),
      CreateTargetErrors(p.target), CreateCurrentErrors(p.current, p.target), CreateCategoryErrors(p.category);
    assert ts != [] ==> ts[0].field == TitleField;
    assert ds != [] ==> ds[0].field == DescriptionField;
    assert gs != [] ==> gs[0].field == TargetField;
    assert cs != [] ==> cs[0].field == CurrentField;
    assert ks != [] ==> ks[0].field == CategoryField;
  }

  /** A violation is reported against a field exactly when that field's own check fails. */
  lemma CreateViolationsLocate(p: CreatePayload, f: FieldName)
    ensures f == TitleField ==> (Mentions(CreateErrors(p), f) <==> CreateTitleErrors(p.title) != [])
    ensures f == DescriptionField ==> (Mentions(CreateErrors(p), f) <==> CreateDescriptionErrors(p.description) != [])
    ensures f == TargetField ==> (Mentions(CreateErrors(p), f) <==> CreateTargetErrors(p.target) != [])
    ensures f == CurrentField ==> (Mentions(CreateErrors(p), f) <==> CreateCurrentErrors(p.current, p.target) != [])
    ensures f == CategoryField ==> (Mentions(CreateErrors(p), f) <==> CreateCategoryErrors(p.category) != [])
  {
    var ts, ds, gs, cs, ks := CreateTitleErrors(p.title), CreateDescriptionErrors(p.description),
      CreateTargetErrors(p.target), CreateCurrentErrors(p.current, p.target), CreateCategoryErrors(p.category);
    FieldChecksNameTheirField(p, f);
    MentionsConcat(ts, ds, f);
    MentionsConcat(ts + ds, gs, f);
    MentionsConcat(ts + ds + gs, cs, f);
    MentionsConcat(ts + ds + gs + cs, ks, f);
  }

  // ---------- AchievementUpdate ----------

  /**
   * An update body: each field is either unset (`None`) or set. A set
   * description may be null, hence the inner `Option`.
   */
  datatype UpdatePayload = UpdatePayload(
    title: Option<string>,
    description: Option<Option<string>>,
    target: Option<int>,
    current: Option<int>,
    category: Option<string>)

  function UpdateErrors(p: UpdatePayload): seq<Violation> {
    (if p.title.Some? then LengthCheck(TitleField, p.title.value, 1, TITLE_MAX) else [])
    + (if p.description.Some? && p.description.value.Some?
       then LengthCheck(DescriptionField, p.description.value.value, 0, DESCRIPTION_MAX) else [])
    + (if p.target.Some? then TargetCheck(p.target.value) else [])
    + (if p.current.Some? then
         (if p.current.value < 0 then [Violation(CurrentField, Negative)]
          else if p.target.Some? && TargetCheck(p.target.value) == [] && p.current.value > p.target.value
          then [Violation(CurrentField, ExceedsTarget)]
          else [])
       else [])
    + (if p.category.Some? then LengthCheck(CategoryField, p.category.value, 1, CATEGORY_MAX) else [])
  }

  /** The bounds of `AchievementUpdate`: only set fields are checked, the cross check only when both are set. */
  predicate ValidUpdate(p: UpdatePayload) {
    && (p.title.Some? ==> 1 <= |p.title.value| <= TITLE_MAX)
    && (p.description.Some? && p.description.value.Some? ==> |p.description.value.value| <= DESCRIPTION_MAX)
    && (p.target.Some? ==> 0 < p.target.value <= TARGET_MAX)
    && (p.current.Some? ==> 0 <= p.current.value)
    && (p.current.Some? && p.target.Some? ==> p.current.value <= p.target.value)
    && (p.category.Some? ==> 1 <= |p.category.value| <= CATEGORY_MAX)
  }

  /** Parsing an `AchievementUpdate` body: the body itself, unchanged, or its violations. */
  function ValidateUpdate(p: UpdatePayload): (r: Result<UpdatePayload, seq<Violation>>)
    ensures r.Success? ==> r.value == p
    ensures r.Failure? ==> r.error != []
  {
    var errors := UpdateErrors(p);
    if errors != [] then Failure(errors) else Success(p)
  }

  lemma ValidateUpdateIffValid(p: UpdatePayload)
    ensures ValidateUpdate(p).Success? <==> ValidUpdate(p)
  {
  }

  /** The empty update body is always accepted. */
  lemma EmptyUpdateIsValid()
    ensures ValidateUpdate(UpdatePayload(None, None, None, None, None)).Success?
  {
  }

  /** Unlike creation, an update title of spaces only passes validation and is not stripped. */
  lemma BlankUpdateTitleIsAccepted()
    ensures ValidateUpdate(UpdatePayload(Some("  "), None, None, None, None)) == Success(UpdatePayload(Some("  "), None, None, None, None))
    ensures ValidateCreate(CreatePayload(Some("  "), None, Some(1), None, Some("c"))) == Failure([Violation(TitleField, BlankTitle)])
  {
    var p := CreatePayload(Some("  "), None, Some(1), None, Some("c"));
    assert IsBlank("  ");
    assert CreateTitleErrors(p.title) == [Violation(TitleField, BlankTitle)];
    assert CreateCategoryErrors(p.category) == [];
    assert CreateErrors(p) == [Violation(TitleField, BlankTitle)];
  }
}

=== FILE: session.dfy ===
/**
 * The session side of `useAchievements`: loading with the seed fallback and
 * the auto-save effect that follows every change of the collection.
 */
module Session {
  import opened Wrappers
  import opened Entities
  import opened Text
  import opened Storage
  import opened Achievements

  /** The hook's state: the collection, the loading flag, the browser store and the last storage info. */
  datatype State = State(items: seq<Achievement>, loading: bool, store: LocalStore, info: StorageInfo)

  /** The state on mount, before the first load has finished. */
  function Mounted(st: LocalStore): (r: State)
    ensures r.loading && r.items == [] && r.info == NoData
  {
    State([], true, st, NoData)
  }

  const FIRST_EXAMPLE_TITLE := "学习React组件"
  const FIRST_EXAMPLE_DESCRIPTION := "理解了组件和props的基本概念"
  const FIRST_EXAMPLE_IMAGE := "https://images.unsplash.com/photo-1633356122544-f134324a6cee?w=400&h=250&fit=crop"
  const SECOND_EXAMPLE_TITLE := "完成5公里跑步"
  const SECOND_EXAMPLE_DESCRIPTION := "坚持跑步5公里，配速6:30"
  const SECOND_EXAMPLE_IMAGE := "https://images.unsplash.com/photo-1571019613454-1cb2f99b2d8b?w=400&h=250&fit=crop"

  /** One example record stamped with the load time: `createdAt` now, `date` today. */
  function Example(id: int, title: string, description: string, image: string, tag: string, clock: Clock): (a: Achievement)
    requires title != ""
    ensures a.id == id && a.title == title && a.tag == tag
    ensures a.createdAt == Some(clock.ms) && a.date == Some(BeforeFirst(clock.iso, 'T')) && a.updatedAt == None
  {
    Achievement(id, title, Some(description), Some(image), tag, Some(BeforeFirst(clock.iso, 'T')), Some(clock.ms), None)
  }

  /** `getInitialAchievements()` read at `clock`: two examples with ids 1 and 2. */
  function InitialAchievements(clock: Clock): (r: seq<Achievement>)
    ensures |r| == 2 && r[0].id == 1 && r[1].id == 2
    ensures UniqueIds(r)
    ensures forall i :: 0 <= i < |r| ==>
      r[i].title != "" && r[i].createdAt == Some(clock.ms) && r[i].date == Some(BeforeFirst(clock.iso, 'T'))
      && r[i].updatedAt == None
  {
    assert |FIRST_EXAMPLE_TITLE| > 0 && |SECOND_EXAMPLE_TITLE| > 0;
    [
      Example(1, FIRST_EXAMPLE_TITLE, FIRST_EXAMPLE_DESCRIPTION, FIRST_EXAMPLE_IMAGE, "学习", clock),
      Example(2, SECOND_EXAMPLE_TITLE, SECOND_EXAMPLE_DESCRIPTION, SECOND_EXAMPLE_IMAGE, "健身", clock)
    ]
  }

  /** The saved list is adopted only when it is present and non-empty. */
  predicate Adopts(st: LocalStore) {
    LoadAchievements(st).Some? && |LoadAchievements(st).value| > 0
  }

  /**
   * `loadData()`: adopt a non-empty saved list, or seed the examples and save
   * them; then read the storage info. When that read throws, the `catch`
   * leaves an empty collection. Either way loading ends.
   */
  function LoadData(ss: State, clock: Clock, writeOk: bool): (r: State)
    ensures !r.loading
    ensures Adopts(ss.store) ==> r.items == LoadAchievements(ss.store).value && r.store == ss.store
    ensures !Adopts(ss.store) && writeOk ==>
      r.items == InitialAchievements(clock) && LoadAchievements(r.store) == Some(r.items)
      && r.info == HasData(2)
    ensures !Adopts(ss.store) && !writeOk ==>
      && r.store == ss.store
      && (!Corrupted(ss.store) ==> r.items == InitialAchievements(clock))
      && (NoSavedText(ss.store) ==> r.info == NoData)
      && (Corrupted(ss.store) ==> r.items == [] && r.info == ss.info)
    ensures forall k | k != ACHIEVEMENTS_KEY :: (k in r.store <==> k in ss.store) && (k in ss.store ==> r.store[k] == ss.store[k])
  {
    if Adopts(ss.store) then Settle(LoadAchievements(ss.store).value, ss.store, ss.info)
    else
      var seed := InitialAchievements(clock);
      Settle(seed, SaveAchievements(ss.store, seed, writeOk), ss.info)
  }

  /** The primary key is absent or holds the empty text: `if (!data)` sees no data. */
  predicate NoSavedText(st: LocalStore) {
    ACHIEVEMENTS_KEY !in st || st[ACHIEVEMENTS_KEY].Empty?
  }

  /** The primary key holds text that `JSON.parse` rejects. */
  predicate Corrupted(st: LocalStore) {
    ACHIEVEMENTS_KEY in st && st[ACHIEVEMENTS_KEY].Corrupt?
  }

  /**
   * The tail of `loadData()`: the chosen list and the store it left, with the
   * info read back from that store; a failing read empties the collection.
   */
  function Settle(items: seq<Achievement>, st: LocalStore, info: StorageInfo): (r: State)
    ensures !r.loading && r.store == st
    ensures LoadAchievements(st).Some? ==> r.items == items && r.info == HasData(|LoadAchievements(st).value|)
    ensures NoSavedText(st) ==> r.items == items && r.info == NoData
    ensures Corrupted(st) ==> r.items == [] && r.info == info
  {
    match GetStorageInfo(st)
    case Success(i) => State(items, false, st, i)
    case Failure(_) => State([], false, st, info)
  }

  /**
   * How an effect ends: it finishes, or an exception escapes it. `state` is
   * what the effect had done by then.
   */
  datatype Run = Finished(state: State) | Threw(state: State)

  /**
   * The auto-save effect: the collection is saved, and the info refreshed,
   * only when it is non-empty and loading has finished. The info read is
   * outside any `try`, so unparseable text left under the key by a failed
   * write escapes the effect as an exception.
   */
  function AutoSave(ss: State, writeOk: bool): (r: Run)
    ensures r.state.items == ss.items && r.state.loading == ss.loading
    ensures |ss.items| == 0 || ss.loading ==> r == Finished(ss)
    ensures r.Threw? <==> |ss.items| > 0 && !ss.loading && !writeOk && Corrupted(ss.store)
    ensures r.Threw? ==> r.state == ss
    ensures !writeOk ==> r.state.store == ss.store
    ensures r.Finished? && |ss.items| > 0 && !ss.loading ==>
      GetStorageInfo(r.state.store).Success? && r.state.info == GetStorageInfo(r.state.store).value
    ensures |ss.items| > 0 && !ss.loading && writeOk ==>
      r.Finished? && LoadAchievements(r.state.store) == Some(ss.items) && r.state.info == HasData(|ss.items|)
    ensures forall k | k != ACHIEVEMENTS_KEY ::
      (k in r.state.store <==> k in ss.store) && (k in ss.store ==> r.state.store[k] == ss.store[k])
  {
    if |ss.items| > 0 && !ss.loading then
      var st := SaveAchievements(ss.store, ss.items, writeOk);
      match GetStorageInfo(st)
      case Success(info) => Finished(ss.(store := st, info := info))
      case Failure(_) => Threw(ss.(store := st))
    else Finished(ss)
  }

  /** First load of an empty store seeds the examples, and the next load reads them back. */
  lemma SeedIsPersisted(st: LocalStore, first: Clock, later: Clock, writeOk: bool)
    requires LoadAchievements(st) == None
    ensures var s1 := LoadData(Mounted(st), first, true);
      s1.items == InitialAchievements(first)
      && LoadData(s1, later, writeOk).items == InitialAchievements(first)
  {
  }

  /**
   * Clearing is never saved: the store keeps the previous list, so a reload
   * after a clear brings a non-empty saved list back.
   */
  lemma ClearThenReloadRestores(ss: State, clock: Clock, saveOk: bool, loadOk: bool)
    requires Adopts(ss.store)
    ensures var cleared := AutoSave(ss.(items := Clear(ss.items).items), saveOk).state;
      cleared.store == ss.store
      && LoadData(cleared, clock, loadOk).items == LoadAchievements(ss.store).value
  {
  }

  /** An import that accepts nothing is not saved either. */
  lemma EmptyImportIsNotSaved(ss: State, p: Parsed, saveOk: bool)
    requires ImportData(p).Success? && ImportData(p).value.accepted == 0
    ensures AutoSave(ss.(items := ImportData(p).value.items), saveOk) == Finished(ss.(items := ImportData(p).value.items))
  {
  }

  /**
   * A failed save is swallowed: the previously saved list stays under the
   * key, and the info is read back from it.
   */
  lemma FailedSaveKeepsSavedList(ss: State)
    requires |ss.items| > 0 && !ss.loading
    requires LoadAchievements(ss.store).Some?
    ensures AutoSave(ss, false) == Finished(ss.(info := HasData(|LoadAchievements(ss.store).value|)))
  {
  }

  /**
   * A failed write leaves unparseable text under the key in place, and the
   * info read that follows throws out of the effect.
   */
  lemma FailedSaveOverCorruptTextThrows(ss: State)
    requires |ss.items| > 0 && !ss.loading
    requires Corrupted(ss.store)
    ensures AutoSave(ss, false) == Threw(ss)
  {
  }

  /** An add after loading is saved, together with everything before it. */
  lemma AddIsSaved(ss: State, draft: Achievement, now: int)
    requires !ss.loading
    ensures var r := AutoSave(ss.(items := Add(ss.items, draft, now).items), true);
      r.Finished? && LoadAchievements(r.state.store) == Some(Add(ss.items, draft, now).items)
  {
  }
}

=== FILE: sorting.dfy ===
/**
 * A stable sort into non-increasing order of an integer key, the order both
 * `backups.sort((a, b) => b.timestamp - a.timestamp)` and
 * `sort((a, b) => b.count - a.count)` produce.
 */
module Sorting {

  predicate SortedDesc<T>(s: seq<T>, key: T -> int) {
    forall i, j :: 0 <= i < j < |s| ==> key(s[i]) >= key(s[j])
  }

  /** Inserts `x` in front of the first element whose key does not exceed its own. */
  function Insert<T>(x: T, s: seq<T>, key: T -> int): (r: seq<T>)
    requires SortedDesc(s, key)
    ensures SortedDesc(r, key)
    ensures multiset(r) == multiset(s) + multiset{x}
    ensures |r| == |s| + 1
  {
    if s == [] || key(s[0]) <= key(x) then [x] + s
    else
      var rest := Insert(x, s[1..], key);
      InsertHeadBound(x, s, rest, key);
      assert s == [s[0]] + s[1..];
      [s[0]] + rest
  }

  lemma InsertHeadBound<T>(x: T, s: seq<T>, rest: seq<T>, key: T -> int)
    requires s != [] && SortedDesc(s, key) && key(x) < key(s[0])
    requires multiset(rest) == multiset(s[1..]) + multiset{x}
    ensures forall k :: 0 <= k < |rest| ==> key(rest[k]) <= key(s[0])
  {
    forall k | 0 <= k < |rest| ensures key(rest[k]) <= key(s[0]) {
      assert rest[k] in multiset(rest);
      if rest[k] != x {
        assert rest[k] in multiset(s[1..]);
        var m :| 0 <= m < |s[1..]| && s[1..][m] == rest[k];
        assert s[m + 1] == rest[k];
      }
    }
  }

  /** Insertion sort into non-increasing key order; `SortDescIsStable` states its tie order. */
  function SortDesc<T>(s: seq<T>, key: T -> int): (r: seq<T>)
    ensures SortedDesc(r, key)
    ensures multiset(r) == multiset(s)
    ensures |r| == |s|
  {
    if s == [] then []
    else
      assert s == [s[0]] + s[1..];
      Insert(s[0], SortDesc(s[1..], key), key)
  }

  /** The elements of `s` whose key is `k`, in their order in `s`. */
  function WithKey<T>(s: seq<T>, key: T -> int, k: int): (r: seq<T>)
    ensures |r| <= |s|
  {
    if s == [] then [] else (if key(s[0]) == k then [s[0]] else []) + WithKey(s[1..], key, k)
  }

  /** Inserting puts `x` ahead of every element with the same key. */
  lemma {:induction false} InsertWithKey<T>(x: T, s: seq<T>, key: T -> int, k: int)
    requires SortedDesc(s, key)
    ensures WithKey(Insert(x, s, key), key, k) == (if key(x) == k then [x] else []) + WithKey(s, key, k)
  {
    var r := Insert(x, s, key);
    if s == [] || key(s[0]) <= key(x) {
      assert r[0] == x && r[1..] == s;
    } else {
      var rest := Insert(x, s[1..], key);
      assert r == [s[0]] + rest;
      assert r[0] == s[0] && r[1..] == rest;
      InsertWithKey(x, s[1..], key, k);
    }
  }

  /**
   * The sort is stable: the elements sharing a key keep their relative
   * order, so the result is fixed even where keys tie.
   */
  lemma {:induction false} SortDescIsStable<T>(s: seq<T>, key: T -> int, k: int)
    ensures WithKey(SortDesc(s, key), key, k) == WithKey(s, key, k)
  {
    if s != [] {
      SortDescIsStable(s[1..], key, k);
      InsertWithKey(s[0], SortDesc(s[1..], key), key, k);
    }
  }

  /** No element occurs twice. */
  predicate Distinct<T(==)>(s: seq<T>) {
    forall i, j :: 0 <= i < j < |s| ==> s[i] != s[j]
  }

  lemma DistinctIffSingleOccurrences<T>(s: seq<T>)
    ensures Distinct(s) <==> forall x | x in multiset(s) :: multiset(s)[x] == 1
  {
    if Distinct(s) {
      DistinctOccursOnce(s);
    } else {
      var i, j :| 0 <= i < j < |s| && s[i] == s[j];
      RepeatOccursTwice(s, i, j);
    }
  }

  lemma {:induction false} DistinctOccursOnce<T>(s: seq<T>)
    requires Distinct(s)
    ensures forall x | x in multiset(s) :: multiset(s)[x] == 1
  {
    if s != [] {
      DistinctTail(s);
      DistinctOccursOnce(s[1..]);
      assert s == [s[0]] + s[1..];
      assert multiset(s) == multiset{s[0]} + multiset(s[1..]);
    }
  }

  lemma RepeatOccursTwice<T>(s: seq<T>, i: int, j: int)
    requires 0 <= i < j < |s| && s[i] == s[j]
    ensures multiset(s)[s[i]] >= 2
  {
    assert s[i] in s[j..] && s[i] in s[..j];
    assert s == s[..j] + s[j..];
    assert multiset(s) == multiset(s[..j]) + multiset(s[j..]);
  }

  /** A rearrangement of a repetition-free sequence is repetition-free. */
  lemma PermutationKeepsDistinct<T>(a: seq<T>, b: seq<T>)
    requires multiset(a) == multiset(b)
    requires Distinct(a)
    ensures Distinct(b)
  {
    DistinctIffSingleOccurrences(a);
    DistinctIffSingleOccurrences(b);
  }

  lemma DistinctTail<T>(s: seq<T>)
    requires s != [] && Distinct(s)
    ensures Distinct(s[1..])
    ensures s[0] !in s[1..]
  {
    forall i, j | 0 <= i < j < |s[1..]| ensures s[1..][i] != s[1..][j] {
      assert s[1..][i] == s[i + 1] && s[1..][j] == s[j + 1];
    }
    forall i | 0 <= i < |s[1..]| ensures s[1..][i] != s[0] {
      assert s[1..][i] == s[i + 1];
    }
  }
}

=== FILE: storage.dfy ===
/**
 * `src/utils/storage.jsx`: the achievement list kept under one key of the
 * browser's string key-value store. JSON text is abstracted to what reading
 * it back yields: the empty string, text that does not parse to a list, or
 * the list itself.
 */
module Storage {
  import opened Wrappers
  import opened Entities

  const ACHIEVEMENTS_KEY: string := "growth-map-achievements"

  datatype Stored = Empty | Corrupt | Saved(items: seq<Achievement>)

  /** `localStorage`, keyed by item name. */
  type LocalStore = map<string, Stored>

  /**
   * `loadAchievements()`: the saved list, or None when the key is absent,
   * holds the empty string, or holds text that does not parse.
   */
  function LoadAchievements(st: LocalStore): (r: Option<seq<Achievement>>)
    ensures ACHIEVEMENTS_KEY !in st ==> r == None
    ensures ACHIEVEMENTS_KEY in st && (st[ACHIEVEMENTS_KEY].Empty? || st[ACHIEVEMENTS_KEY].Corrupt?) ==> r == None
    ensures ACHIEVEMENTS_KEY in st && st[ACHIEVEMENTS_KEY].Saved? ==> r == Some(st[ACHIEVEMENTS_KEY].items)
  {
    if ACHIEVEMENTS_KEY in st then
      match st[ACHIEVEMENTS_KEY]
      case Saved(items) => Some(items)
      case _ => None
    else None
  }

  /**
   * `saveAchievements(items)`; `writeOk` is false when `setItem` throws, in
   * which case the error is swallowed and the store is left as it was.
   */
  function SaveAchievements(st: LocalStore, items: seq<Achievement>, writeOk: bool): (r: LocalStore)
    ensures writeOk ==> LoadAchievements(r) == Some(items)
    ensures !writeOk ==> r == st
    ensures forall k | k != ACHIEVEMENTS_KEY :: (k in r <==> k in st) && (k in st ==> r[k] == st[k])
  {
    if writeOk then st[ACHIEVEMENTS_KEY := Saved(items)] else st
  }

  /** `clearAchievements()`. */
  function ClearAchievements(st: LocalStore): (r: LocalStore)
    ensures ACHIEVEMENTS_KEY !in r
    ensures forall k | k != ACHIEVEMENTS_KEY :: (k in r <==> k in st) && (k in st ==> r[k] == st[k])
  {
    st - {ACHIEVEMENTS_KEY}
  }

  /** What `getStorageInfo()` reports; byte size and modification time are left out. */
  datatype StorageInfo = NoData | HasData(count: nat)

  /** `JSON.parse` of the stored text threw. */
  datatype StorageError = ParseError

  /**
   * `getStorageInfo()`: no data for an absent key or the empty string, the
   * list length otherwise; text that does not parse makes it throw.
   */
  function GetStorageInfo(st: LocalStore): (r: Result<StorageInfo, StorageError>)
    ensures r == Success(NoData) <==> ACHIEVEMENTS_KEY !in st || st[ACHIEVEMENTS_KEY].Empty?
    ensures r.Failure? <==> ACHIEVEMENTS_KEY in st && st[ACHIEVEMENTS_KEY].Corrupt?
    ensures LoadAchievements(st).Some? ==> r == Success(HasData(|LoadAchievements(st).value|))
  {
    if ACHIEVEMENTS_KEY !in st then Success(NoData)
    else
      match st[ACHIEVEMENTS_KEY]
      case Empty => Success(NoData)
      case Corrupt => Failure(ParseError)
      case Saved(items) => Success(HasData(|items|))
  }

  /** After a clear, load finds nothing and info reports no data. */
  lemma ClearThenLoad(st: LocalStore)
    ensures LoadAchievements(ClearAchievements(st)) == None
    ensures GetStorageInfo(ClearAchievements(st)) == Success(NoData)
  {
  }

  /** A successful save is read back whole, and info counts its records. */
  lemma SaveThenInfo(st: LocalStore, items: seq<Achievement>)
    ensures GetStorageInfo(SaveAchievements(st, items, true)) == Success(HasData(|items|))
  {
  }
}

=== FILE: tags.dfy ===
/** The fixed tag catalogue of `src/constants/tags.jsx` and its lookups. */
module Tags {

  datatype TagConfig = TagConfig(id: string, name: string, emoji: string, color: string, description: string)

  /** The catalogue, in declaration order. */
  const TAGS: seq<TagConfig> := [
    TagConfig("study", "学习", "📚", "#3498db", "学习和知识获取"),
    TagConfig("fitness", "健身", "💪", "#2ecc71", "运动和健康"),
    TagConfig("work", "工作", "💼", "#9b59b6", "工作和项目"),
    TagConfig("life", "生活", "🏡", "#e67e22", "生活和兴趣爱好"),
    TagConfig("creative", "创作", "🎨", "#e74c3c", "艺术和创作"),
    TagConfig("social", "社交", "👥", "#1abc9c", "社交和人际关系")
  ]

  /** The tag the form starts with and resets to. */
  const DEFAULT_TAG: string := "学习"

  /** True when some catalogue entry is called `name`. */
  predicate IsKnown(name: string) {
    exists i :: 0 <= i < |TAGS| && TAGS[i].name == name
  }

  /** `Array.prototype.find` over `tags` by name: the index of the first match. */
  function FindByName(tags: seq<TagConfig>, name: string): (r: int)
    ensures -1 <= r < |tags|
    ensures r >= 0 ==> tags[r].name == name && forall j :: 0 <= j < r ==> tags[j].name != name
    ensures r == -1 <==> forall j :: 0 <= j < |tags| ==> tags[j].name != name
  {
    if tags == [] then -1
    else if tags[0].name == name then 0
    else var k := FindByName(tags[1..], name); if k == -1 then -1 else k + 1
  }

  /** The entry called `name`, or the first entry when there is none. */
  function GetTagConfig(name: string): (r: TagConfig)
    ensures forall i :: 0 <= i < |TAGS| && TAGS[i].name == name ==> r == TAGS[i]
    ensures !IsKnown(name) ==> r == TAGS[0]
  {
    CatalogueKeysDistinct();
    var k := FindByName(TAGS, name);
    if k >= 0 then TAGS[k] else TAGS[0]
  }

  /** The names of the catalogue, in order. */
  function GetTagNames(): (r: seq<string>)
    ensures |r| == |TAGS|
    ensures forall i :: 0 <= i < |TAGS| ==> r[i] == TAGS[i].name
  {
    seq(|TAGS|, i requires 0 <= i < |TAGS| => TAGS[i].name)
  }

  function GetTagColor(name: string): (r: string)
    ensures !IsKnown(name) ==> r == "#3498db"
    ensures forall i :: 0 <= i < |TAGS| && TAGS[i].name == name ==> r == TAGS[i].color
  {
    GetTagConfig(name).color
  }

  function GetTagEmoji(name: string): (r: string)
    ensures !IsKnown(name) ==> r == "📚"
    ensures forall i :: 0 <= i < |TAGS| && TAGS[i].name == name ==> r == TAGS[i].emoji
  {
    GetTagConfig(name).emoji
  }

  /** The catalogue names are the six category labels, in this order. */
  lemma TagNamesInOrder()
    ensures GetTagNames() == ["学习", "健身", "工作", "生活", "创作", "社交"]
  {
  }

  /** Names and ids identify catalogue entries: no two entries share either. */
  lemma CatalogueKeysDistinct()
    ensures forall i, j :: 0 <= i < j < |TAGS| ==> TAGS[i].name != TAGS[j].name && TAGS[i].id != TAGS[j].id
  {
  }
}

=== FILE: text.dfy ===
/**
 * String helpers shared by the model: decimal rendering and parsing, left
 * padding, prefix/suffix tests and whitespace stripping as JavaScript's
 * `String.prototype.trim` and Python's `str.strip` perform it.
 */
module Text {
  import opened Wrappers

  predicate IsDigit(c: char) {
    '0' <= c <= '9'
  }

  function DigitChar(d: nat): (c: char)
    requires d < 10
    ensures IsDigit(c)
  {
    "0123456789"[d]
  }

  function DigitValue(c: char): (d: nat)
    requires IsDigit(c)
    ensures d < 10
  {
    (c as int - '0' as int) as nat
  }

  /** The shortest decimal rendering of `n` (`Number.prototype.toString`). */
  function NatToString(n: nat): (r: string)
    ensures |r| >= 1
    ensures forall i :: 0 <= i < |r| ==> IsDigit(r[i])
    ensures n > 0 ==> r[0] != '0'
  {
    if n < 10 then [DigitChar(n)] else NatToString(n / 10) + [DigitChar(n % 10)]
  }

  /** The decimal rendering of a possibly negative integer. */
  function IntToString(n: int): (r: string)
    ensures |r| >= 1
    ensures n >= 0 ==> r == NatToString(n)
    ensures n < 0 ==> r == "-" + NatToString(-n)
  {
    if n >= 0 then NatToString(n) else "-" + NatToString(-n)
  }

  /** The value of a run of decimal digits (0 for none). */
  function DigitsValue(s: string): (n: nat)
    requires forall i :: 0 <= i < |s| ==> IsDigit(s[i])
  {
    if s == [] then 0 else DigitsValue(s[..|s| - 1]) * 10 + DigitValue(s[|s| - 1])
  }

  lemma {:induction false} DigitsValueOfNatToString(n: nat)
    ensures DigitsValue(NatToString(n)) == n
  {
    var r := NatToString(n);
    if n >= 10 {
      assert r[..|r| - 1] == NatToString(n / 10);
      DigitsValueOfNatToString(n / 10);
    }
  }

  /** The number of leading decimal digits of `s`. */
  function DigitPrefixLength(s: string): (k: nat)
    ensures k <= |s|
    ensures forall i :: 0 <= i < k ==> IsDigit(s[i])
    ensures k < |s| ==> !IsDigit(s[k])
  {
    if s == [] || !IsDigit(s[0]) then 0 else 1 + DigitPrefixLength(s[1..])
  }

  /**
   * `parseInt(s, 10)` on text without a sign or leading blanks: the value of
   * the leading digits, or None (NaN) when `s` does not start with a digit.
   */
  function ParseLeadingInt(s: string): (r: Option<nat>)
    ensures r.None? <==> (s == [] || !IsDigit(s[0]))
  {
    var k := DigitPrefixLength(s);
    if k == 0 then None else Some(DigitsValue(s[..k]))
  }

  lemma ParseLeadingIntOfNatToString(n: nat)
    ensures ParseLeadingInt(NatToString(n)) == Some(n)
  {
    var r := NatToString(n);
    DigitsValueOfAll(r);
    assert r[..|r|] == r;
    DigitsValueOfNatToString(n);
  }

  lemma {:induction false} DigitsValueOfAll(s: string)
    requires forall i :: 0 <= i < |s| ==> IsDigit(s[i])
    ensures DigitPrefixLength(s) == |s|
  {
    if s != [] {
      DigitsValueOfAll(s[1..]);
    }
  }

  predicate StartsWith(s: string, prefix: string) {
    |prefix| <= |s| && s[..|prefix|] == prefix
  }

  /** `s.padStart(width, pad)`: `s` left-filled with `pad` up to `width` characters. */
  function PadStart(s: string, width: nat, pad: char): (r: string)
    ensures |r| == if |s| >= width then |s| else width
    ensures r[|r| - |s|..] == s
    ensures forall i :: 0 <= i < |r| - |s| ==> r[i] == pad
  {
    if |s| >= width then s else seq(width - |s|, _ => pad) + s
  }

  /** Characters removed by JavaScript's `trim`: WhiteSpace and LineTerminator. */
  predicate IsJsSpace(c: char) {
    ('\U{9}' <= c <= '\U{D}') || c == ' ' || c == '\U{A0}' || c == '\U{1680}'
    || ('\U{2000}' <= c <= '\U{200A}') || c == '\U{2028}' || c == '\U{2029}'
    || c == '\U{202F}' || c == '\U{205F}' || c == '\U{3000}' || c == '\U{FEFF}'
  }

  /** Characters removed by Python's `str.strip()` with no argument (`str.isspace`). */
  predicate IsPySpace(c: char) {
    ('\U{9}' <= c <= '\U{D}') || ('\U{1C}' <= c <= '\U{1F}') || c == ' '
    || c == '\U{85}' || c == '\U{A0}' || c == '\U{1680}'
    || ('\U{2000}' <= c <= '\U{200A}') || c == '\U{2028}' || c == '\U{2029}'
    || c == '\U{202F}' || c == '\U{205F}' || c == '\U{3000}'
  }

  predicate AllSpace(s: string, isSpace: char -> bool) {
    forall i :: 0 <= i < |s| ==> isSpace(s[i])
  }

  /** The length of the whitespace run at the start of `s`. */
  function LeadingSpace(s: string, isSpace: char -> bool): (k: nat)
    ensures k <= |s|
    ensures forall i :: 0 <= i < k ==> isSpace(s[i])
    ensures k < |s| ==> !isSpace(s[k])
  {
    if s == [] || !isSpace(s[0]) then 0
    else
      var k := LeadingSpace(s[1..], isSpace);
      assert forall i :: 1 <= i < |s| ==> s[i] == s[1..][i - 1];
      k + 1
  }

  /** The length of `s` without the whitespace run at its end. */
  function ContentEnd(s: string, isSpace: char -> bool): (k: nat)
    ensures k <= |s|
    ensures forall i :: k <= i < |s| ==> isSpace(s[i])
    ensures k > 0 ==> !isSpace(s[k - 1])
  {
    if s == [] || !isSpace(s[|s| - 1]) then |s|
    else
      var k := ContentEnd(s[..|s| - 1], isSpace);
      assert forall i :: 0 <= i < |s| - 1 ==> s[i] == s[..|s| - 1][i];
      k
  }

  /** `trimStart`: `s` without its leading whitespace. */
  function TrimStart(s: string, isSpace: char -> bool): (r: string)
    ensures |r| <= |s| && r == s[|s| - |r|..]
    ensures r == [] || !isSpace(r[0])
    ensures AllSpace(s[..|s| - |r|], isSpace)
  {
    s[LeadingSpace(s, isSpace)..]
  }

  /** `trimEnd`: `s` without its trailing whitespace. */
  function TrimEnd(s: string, isSpace: char -> bool): (r: string)
    ensures |r| <= |s| && r == s[..|r|]
    ensures r == [] || !isSpace(r[|r| - 1])
    ensures AllSpace(s[|r|..], isSpace)
    ensures r == [] ==> AllSpace(s, isSpace)
  {
    var k := ContentEnd(s, isSpace);
    assert k == 0 ==> s[k..] == s;
    s[..k]
  }

  /** Whitespace removed from both ends. */
  function Strip(s: string, isSpace: char -> bool): (r: string)
    ensures |r| <= |s|
    ensures r == [] || (!isSpace(r[0]) && !isSpace(r[|r| - 1]))
  {
    TrimEnd(TrimStart(s, isSpace), isSpace)
  }

  /** Stripping leaves nothing exactly when every character is whitespace. */
  lemma {:induction false} StripEmptyIffAllSpace(s: string, isSpace: char -> bool)
    ensures Strip(s, isSpace) == [] <==> AllSpace(s, isSpace)
  {
    var t := TrimStart(s, isSpace);
    if t == [] {
      assert s[..|s| - |t|] == s;
    } else {
      assert !isSpace(t[0]);
      assert s[|s| - |t|] == t[0];
    }
  }

  /** Stripping is idempotent: text already stripped comes back unchanged. */
  lemma StripIdempotent(s: string, isSpace: char -> bool)
    ensures Strip(Strip(s, isSpace), isSpace) == Strip(s, isSpace)
  {
    var t := Strip(s, isSpace);
    if t != [] {
      assert LeadingSpace(t, isSpace) == 0;
      assert TrimStart(t, isSpace) == t;
      assert ContentEnd(t, isSpace) == |t|;
    }
  }

  /** `s.split(sep)[0]`: the text before the first `sep`, or all of `s`. */
  function BeforeFirst(s: string, sep: char): (r: string)
    ensures sep !in r
    ensures |r| <= |s| && r == s[..|r|]
    ensures |r| < |s| ==> s[|r|] == sep
  {
    if s == [] || s[0] == sep then [] else [s[0]] + BeforeFirst(s[1..], sep)
  }

  /** The text before the first separator is exactly the prefix up to its first occurrence. */
  lemma {:induction false} BeforeFirstAt(s: string, sep: char, k: nat)
    requires k < |s| && s[k] == sep
    requires forall i :: 0 <= i < k ==> s[i] != sep
    ensures BeforeFirst(s, sep) == s[..k]
  {
    if k > 0 {
      BeforeFirstAt(s[1..], sep, k - 1);
      assert s[..k] == [s[0]] + s[1..][..k - 1];
    }
  }
}

=== FILE: wrappers.dfy ===
/** Failure-compatible wrappers shared by every module of the model. */
module Wrappers {

  /** A value that may be absent: JavaScript `undefined`/`null`, Python `None`. */
  datatype Option<+T> = None | Some(value: T) {
    function GetOr(default: T): T {
      match this
      case Some(v) => v
      case None => default
    }
  }

  /** The outcome of an operation that can throw or answer with an error status. */
  datatype Result<+R, +E> = Success(value: R) | Failure(error: E) {
    predicate IsFailure() {
      Failure?
    }
  }
}
